=== FILE: README.md ===
# boids-c in Dafny

A model of the discrete core of boids-c, a flocking simulation on a
wrap-around screen, with proofs about that model.

- **The spatial hash** (`SpatialHash`, spatial_hash.dfy). This is a fixed
  table of 10007 singly linked lists. A boid goes into the list of its grid
  cell of 50 x 50 pixels, and a neighbour query walks the lists of the 3 x 3
  block of cells around a boid.
  - A list is a `seq<nat>` with its head at index 0.
  - A boid reference is the boid's index in the boid array.
  - The cell hash is `hash_cell`, computed in 32-bit unsigned arithmetic.
- **The torus geometry** (`Torus`, torus.dfy; `Vector`, vector.dfy). This
  covers the displacement `Vector2SubtractTorus`, the squared
  `DistanceOnTorus`, and the single-shift wrap `Vector2Wrap`.
  - The screen extents are parameters (`World`).
  - Coordinates are reals.
- **The density colour index** (`Density`, density.dfy). This is
  `int_log2`, a base-2 logarithm clamped to 10 that indexes the 11-entry
  colour table.
- **The discrete part of `UpdateBoids`** (`Simulation`, simulation.dfy). This
  covers:
  - the `predated` decision;
  - the update phase that writes only shadow fields;
  - the serial commit of the shadow fields;
  - the rebuild of the spatial hash, with the predator inserted at its
    pre-move position;
  - the predator's move.

  The float steering is not modelled. Its results are parameters: each boid's
  clamped velocity and neighbour counts, the predator's new velocity, and the
  frame step.

`Wrappers` (wrappers.dfy) holds the `Option` type.

## Model

| member | source | states |
|---|---|---|
| SpatialHash.Length | src/spatial_hash.c:7-14 | Walking a list and counting its nodes gives exactly its length: 0 for an empty list, one more than the tail otherwise. |
| SpatialHash.HashCell | src/spatial_hash.c:26-29 | For every pair of int cell coordinates, negative ones included, the bucket index is below HASH_SIZE = 10007. |
| SpatialHash.BucketOf | src/spatial_hash.c:48-50 | The bucket chosen for a position (its cell by truncating division by 50, then hashed) is a valid table index. |
| SpatialHash.EmptyTable | src/spatial_hash.c:24 | The zero-initialised table has HASH_SIZE buckets, every one empty, and 0 entries in total. |
| SpatialHash.InitTable | src/spatial_hash.c:31-33 | After `init_spatial_hash` every bucket is empty and the table holds no entry. |
| SpatialHash.ClearTable | src/spatial_hash.c:35-45 | Whatever the table held, after `clear_spatial_hash` every bucket is empty and the table holds no entry. |
| SpatialHash.EntriesPrepend | src/spatial_hash.c:52-55 | Prepending one reference to one bucket adds exactly that reference to the table's entries and one to their count. |
| SpatialHash.InsertAt | src/spatial_hash.c:52-55 | The new node becomes the head of bucket `index` and the old list its tail. Every other bucket is unchanged. The total grows by one, and the multiset of entries gains exactly the inserted boid. |
| SpatialHash.Insert | src/spatial_hash.c:47-56 | `insert_boid` puts the boid at the head of the bucket of its own cell and leaves every other bucket alone. It adds exactly one entry, the boid itself. |
| SpatialHash.InsertFrom | src/boids.c:140-145 | Inserting boids next, ..., n-1 one after another adds n - next entries. Each of those boids is added once. |
| SpatialHash.InsertFromStep | src/boids.c:140-145 | Inserting boid `next` at a position whose bucket is its home is the first step of the remaining insertions. |
| SpatialHash.InsertFromKeeps | src/spatial_hash.c:52-55 | Further insertions never remove a reference from any bucket. |
| SpatialHash.InsertFromLands | src/spatial_hash.c:47-56 | After the insertions each inserted boid is in the bucket of its home. |
| SpatialHash.InsertFromPlaced | src/spatial_hash.c:47-56 | If every reference in the table sits in its home bucket, it still does after further insertions. |
| SpatialHash.Rebuild | src/boids.c:139-145 | After a clear followed by inserting boids 0..n-1, the buckets hold n entries in total. Each of the n boids occurs exactly once and no other reference occurs. |
| SpatialHash.RebuildPlaces | src/boids.c:139-145 | After the rebuild each boid is in the bucket `hash_cell` of its own cell, and every reference in a bucket has that bucket as its home. |
| SpatialHash.CellBuckets | src/spatial_hash.c:64-68 | A neighbour query visits exactly nine buckets, each a valid index. |
| SpatialHash.NeighbourBuckets | src/spatial_hash.c:61-68 | The buckets visited from a position are the nine of the 3 x 3 block around its cell. |
| SpatialHash.WalkBucket | src/spatial_hash.c:70-80 | One `while (node)` walk adds at most one reference per node to what was collected, and never adds `p` itself. |
| SpatialHash.ScanBuckets | src/spatial_hash.c:64-81 | Walking several buckets never shortens what was collected, and never adds `p` itself. |
| SpatialHash.WalkBucketIsReversedFilter | src/spatial_hash.c:70-80 | Walking one list and prepending every node except `p` gives that list without `p`, reversed, in front of what was collected before. |
| SpatialHash.ScanBucketsIsReversedFilter | src/spatial_hash.c:64-82 | Walking the visited buckets in order gives the concatenation of their lists, without `p` and reversed. |
| SpatialHash.VisitedInCounts | src/spatial_hash.c:64-81 | A boid's count among the visited entries is the sum of its counts over the visited buckets. A bucket visited twice counts twice. |
| SpatialHash.InVisitedIn | src/spatial_hash.c:64-81 | A boid is among the visited entries exactly when some visited bucket holds it. |
| SpatialHash.OccurrencesAtTwoSteps | src/spatial_hash.c:64-81 | A boid held by buckets visited at two different steps is counted at least twice. |
| SpatialHash.FindNeighbors | src/spatial_hash.c:58-85 | The result never contains `p`. Every other boid occurs as often as the nine visited buckets hold it together. The order is the reverse of the visiting order. |
| SpatialHash.FoundIffHomeVisited | src/spatial_hash.c:64-81 | In a table where every reference is in its home bucket, another boid that the table holds in its home bucket is found exactly when that bucket is one of the nine visited. |
| SpatialHash.AdjacentCellVisited | src/spatial_hash.c:64-68 | The bucket of every cell (cx + dx, cy + dy), with dx and dy in {-1, 0, 1}, is among those visited. |
| SpatialHash.FindNeighborsAfterRebuild | src/spatial_hash.c:58-85 | After a rebuild, another boid is found if and only if its bucket is visited from p's cell. In particular, every boid in the same cell or in one of the eight adjacent cells is found. |
| SpatialHash.WestCellsOfOrigin | src/spatial_hash.c:26-29 | Exact hash values: cells (-1,-1), (-1,0) and (-1,1) go to buckets 503, 8498 and 2419. |
| SpatialHash.CentreCellsOfOrigin | src/spatial_hash.c:26-29 | Exact hash values: cells (0,-1), (0,0) and (0,1) go to buckets 6799, 0 and 6132. |
| SpatialHash.EastCellsOfOrigin | src/spatial_hash.c:26-29 | Exact hash values: cells (1,-1), (1,0) and (1,1) go to buckets 2419, 4433 and 503. |
| SpatialHash.WestBucketsOfOrigin | src/spatial_hash.c:64-68 | From cell (0,0), the first three visits go to buckets 503, 8498 and 2419. |
| SpatialHash.CentreBucketsOfOrigin | src/spatial_hash.c:64-68 | From cell (0,0), visits four to six go to buckets 6799, 0 and 6132. |
| SpatialHash.EastBucketsOfOrigin | src/spatial_hash.c:64-68 | From cell (0,0), the last three visits go to buckets 2419, 4433 and 503. |
| SpatialHash.EdgeCellBucket | src/spatial_hash.c:26-29 | Cell (19,0) hashes to bucket 4171. |
| SpatialHash.OriginDiagonalsCollide | src/spatial_hash.c:64-68 | From cell (0,0), the offsets (-1,-1) and (1,1) visit the same bucket. |
| SpatialHash.CollidingOffsetsReportTwice | src/spatial_hash.c:64-81 | For a boid in cell (0,0), another boid in the bucket of cell (1,1) is reported at least twice, because that bucket is walked twice. |
| SpatialHash.EdgeCellOutsideOriginBlock | src/spatial_hash.c:66-68 | The bucket of cell (19,0) is not among the nine visited from cell (0,0). |
| SpatialHash.EdgeExampleCells | src/spatial_hash.c:61-62 | x = 10 lies in cell column 0 and x = 980 lies in cell column 19. |
| SpatialHash.EdgeCellsAreNotWrapped | src/spatial_hash.c:66-68 | Cell coordinates are not wrapped at the grid edge. After a rebuild, a boid in cell (0,0) does not find a boid in cell (19,0), the last column of a 1000-pixel-wide world. |
| Torus.SubtractAxisAsWritten | src/boids.c:17-18 | For every extent, the code's displacement along an axis is the raw difference, or that difference shifted by one extent. |
| Torus.SubtractTorusAsWritten | src/boids.c:14-24 | For even width and height, `Vector2SubtractTorus` as written is the minimum-image displacement. |
| Torus.SubtractAxisAsWrittenAgrees | src/boids.c:17-21 | Inside the world, for every extent, the code's displacement and the minimum image have equal squares, or both are longer than the integer half. |
| Torus.SubtractAxisShifts | src/boids.c:17-18 | The displacement along an axis is the raw difference, or that difference shifted by one extent. |
| Torus.SubtractAxisMinimumImage | src/boids.c:14-24 | For coordinates inside the world the displacement is at most half an extent long. No image d + k * extent is shorter. |
| Torus.SubtractAxisAntisymmetric | src/boids.c:17-18 | Along an axis, swapping the two points negates the displacement, including at exactly half an extent. |
| Torus.SubtractTorusAntisymmetric | src/boids.c:14-24 | SubtractTorus(b, a) = -SubtractTorus(a, b), componentwise. |
| Torus.SubtractAxisAsWrittenBounded | src/boids.c:17-18 | As written, inside the world the result's magnitude is at most the integer half, or else strictly below extent minus the integer half. |
| Torus.SubtractAxisAsWrittenEven | src/boids.c:17-18 | For an even extent the code's displacement is the minimum-image displacement. |
| Torus.SubtractAxisAsWrittenOddNotAntisymmetric | src/boids.c:17-18 | As written, with width 5, the differences 2.5 and -2.5 both come out as 2.5. |
| Torus.SubtractAxisAsWrittenOddNotMinimum | src/boids.c:17-18 | As written, with width 5, a difference of 2.75 comes out as 2.75, longer than half the width. The shortest image is -2.25. |
| Torus.DistanceAxisAsWritten | src/boids.c:28-31 | The code's distance along an axis is abs(d) or extent - abs(d). For a difference inside the world it lies between 0 and extent minus the integer half, which exceeds half the extent when the extent is odd. |
| Torus.DistanceSqAsWritten | src/boids.c:26-35 | The code's squared distance is never negative. |
| Torus.DistanceAxis | src/boids.c:28-31 | The distance along an axis is non-negative for any difference of at most one extent. |
| Torus.DistanceAxisIsDisplacementLength | src/boids.c:28-31 | Inside the world the distance along an axis is the magnitude of the displacement along it. It lies between 0 and half an extent. |
| Torus.DistanceAxisSquare | src/boids.c:28-34 | Inside the world the squared distance along an axis is the squared displacement along it. |
| Torus.DistanceSqIsDisplacementNorm | src/boids.c:26-35 | Inside the world the squared `DistanceOnTorus` is the squared length of `Vector2SubtractTorus(a, b)`. |
| Torus.DistanceSqSymmetric | src/boids.c:26-35 | The squared torus distance is symmetric, and it is 0 from a point to itself. |
| Torus.DistanceSqBounded | src/boids.c:26-35 | Inside the world the squared torus distance lies between 0 and (width/2)^2 + (height/2)^2. |
| Torus.DistanceSqAsWrittenSymmetric | src/boids.c:26-35 | For any positive extents, the code's squared distance is symmetric and is 0 from a point to itself. |
| Torus.DistanceSqAsWrittenEven | src/boids.c:26-35 | For even width and height the code's squared distance is the torus distance. |
| Torus.DistanceAsWrittenOddTooLong | src/boids.c:31-32 | As written, with width 5, two points 2.25 apart along x are reported 2.75 apart. |
| Torus.WrapAxis | src/boids.c:68-72 | One axis of the wrap moves a coordinate by 0 or one extent, and leaves an in-range coordinate unchanged. |
| Torus.Wrap | src/boids.c:66-75 | A point less than one extent outside the world along each axis is wrapped inside it. |
| Torus.WrapAxisProperties | src/boids.c:66-75 | After one wrap the result is in [0, extent) exactly when the input was in [-extent, 2 extent). |
| Torus.WrapIdempotent | src/boids.c:66-75 | For components in [-extent, 2 extent) the wrapped point is inside the world, and wrapping it again changes nothing. |
| Torus.WrapFarOutside | src/boids.c:68-69 | A coordinate more than one extent outside stays outside after the single shift: -15 wraps to -5 in a 10-wide world. |
| Density.IntLog2 | src/boids.c:168-179 | A negative argument ends the program. Otherwise the result is the reference clamped logarithm: 0 for 0, floor(log2 x) below 1024, and 10 from there on. |
| Density.Log2FloorBrackets | src/boids.c:173-178 | The logarithm r of x >= 1 satisfies 2^r <= x < 2^(r+1). |
| Density.Log2ClampedBelowCap | src/boids.c:170-178 | For 1 <= x < 1024 the result r is unclamped and satisfies 2^r <= x < 2^(r+1). |
| Density.Log2ClampedAtCap | src/boids.c:174-176 | For x >= 1024 the result is 10. |
| Density.Log2ClampedMonotone | src/boids.c:168-179 | The result never decreases as the argument grows. |
| Density.ColorIndex | src/boids.c:187 | The colour lookup `colors[int_log2(neighborCount + nearNeighborCount)]` is defined exactly when the sum is not negative. It then always indexes the 11-entry table. |
| Simulation.WithinAsWrittenIff | src/boids.c:105-107 | Between points inside the world, a radius test on `Vector2SubtractTorus` as written agrees with the test on the minimum-image displacement, for every radius of at most the integer half extents. Odd extents are included. |
| Simulation.PredatorCheck | src/boids.c:105-115 | The predator test changes only `predated`. In a world of at least 180 x 180 with both points inside, the flag is the minimum-image test against PREDATOR_RADIUS. |
| Simulation.MouseCheck | src/boids.c:117-126 | The mouse test changes only `predated`, never clears it, and changes nothing when the mouse is not pressed. |
| Simulation.DecidePredated | src/boids.c:104-126 | After both tests, `predated` holds iff the boid is within PREDATOR_RADIUS of the predator by the code's displacement, or the mouse is pressed and the boid is within MOUSE_RADIUS of the mouse. The previous flag does not matter, and no other field changes. |
| Simulation.PredatedIff | src/boids.c:104-126 | When both radii are at most the integer half extents and the points are inside the world, the same decision holds with the minimum-image displacement. |
| Simulation.PredatedByDistance | src/boids.c:104-126 | Under the same conditions, the decision is the squared torus distance against 90^2, or against the squared mouse radius. |
| Simulation.Move | src/boids.c:131-135 | A move by less than one extent per axis from inside the world, followed by the single wrap, lands inside the world. |
| Simulation.UpdateBoid | src/boids.c:82-135 | The update of one boid writes only the shadow fields, the counts and the flag. Its shadow velocity is the steered one, its shadow position is the move by it, and its counts are the steering's. `predated` is decided by the predator and mouse tests on the code's displacement. The shadow position stays in the world for a short step. |
| Simulation.UpdatePhase | src/boids.c:79-136 | Run as a loop, every flocking boid ends exactly as if updated from the state before the phase. The predator and the mouse are untouched, and no live position or velocity changes. |
| Simulation.Committed | src/boids.c:141-142 | After the commit a boid's live position and velocity equal its shadow ones, and no other field changes. |
| Simulation.CommitOne | src/boids.c:140-144 | One iteration, on the array in which boids before i are committed, commits boid i in place and performs its insertion, the next step of the rebuild. |
| Simulation.CommitFlock | src/boids.c:139-144 | After the loop the flock's shadow fields are live, the rest of the array is unchanged, and only the predator remains to be inserted. |
| Simulation.MovePredator | src/boids.c:148-151 | The predator takes its new velocity, and only its position and velocity change. A short move keeps it in the world. The move itself is `Simulation.Move`, by definition. |
| Simulation.InsertPredator | src/boids.c:145 | Inserting the predator completes the rebuild. The hash holds MAX_BOIDS + 1 entries, boids 0..MAX_BOIDS once each. |
| Simulation.CommitAndMove | src/boids.c:139-151 | The flock is committed, the predator moved and the mouse untouched, with only the predator's insertion left. |
| Simulation.CommitAndRebuild | src/boids.c:138-151 | Each boid i < MAX_BOIDS has velocity = velocity_update and position = position_update, and nothing else changes. The predator has moved, the mouse is untouched, and the hash is the rebuild of the committed positions plus the predator's pre-move position. |
| Simulation.RebuildAfterCommit | src/boids.c:139-145 | After the rebuild each flocking boid is in the bucket of its committed position and the predator in the bucket of its pre-move position. Every reference sits in its home bucket. |
| Simulation.UpdateBoids | src/boids.c:77-152 | After a tick each flocking boid is exactly its per-boid update, computed from the array before the tick, followed by the commit. So `isPredator` and every other field the tick does not write keep their values. Each flocking boid has its steered velocity and counts and has made its own wrapped move. Its `predated` flag is decided from the positions before the tick. The predator has moved by `Simulation.MovePredator`, and the mouse is untouched. The hash is the rebuild of the flock's new positions followed by the predator's position before its move, so each of boids 0..MAX_BOIDS is in it once, in its home bucket. If the flock and the predator start inside the world and every step is short, they end inside it. |

## Left out

- Rendering is not modelled: `DrawBoid`, `DrawPreditor`, the colour values, the window loop of src/main.c and the text overlay. Only the colour table's size of 11 matters, and it is `Density.COLOR_COUNT`.
- The screen extents are runtime globals read from the monitor. They are the `World` parameter, and only positive extents are assumed.
- Initialisation is not modelled: `InitBoids` and src/normal_random.c place the boids with random values and trigonometry.
- The float steering is not modelled: `ComputeFlockForces`, the alignment, cohesion and separation blending, `Vector2ClampValue`, `PreditorAjustment` and `GetFrameTime`. Their results are parameters: `Steering` per boid, the predator's new velocity, and the frame step. The push away from the predator and toward the mouse is part of the steered velocity, so only the `predated` flag of those branches is modelled.
- Coordinates are reals, not IEEE floats, so rounding is not modelled. `sqrtf` is avoided: distances are squared, and `Vector2Length(v) < r` is `r > 0 && |v|^2 < r^2`.
- The OpenMP `parallel for` is a sequential loop in ascending order. `Simulation.UpdatePhase` proves that this loop leaves each boid as if updated from the array before the phase. No other iteration order is verified, and what `ComputeFlockForces` reads is outside the model, because its results are the `Steering` parameter.
- Memory is not modelled: `malloc`/`free`, `free_boid_node`, unchecked allocation failure, and the lists that `find_neighbors` allocates and never frees. Lists are sequences. `find_neighbors` is a pure function, so the table is unchanged by construction.
- `MOUSE_RADIUS` is not defined in the files modelled, so it is a parameter. The same holds for `PREDATOR_INDEX` and `MOUSE_INDEX`. They are taken as MAX_BOIDS and MAX_BOIDS + 1: the predator is drawn from `boids[MAX_BOIDS]` (src/boids.c:209), and the array has MAX_BOIDS + 2 slots (src/boids.c:12).
- `hash_cell` multiplies signed ints, and signed overflow is undefined in C. The model assumes two's-complement wrap-around, so both products are reduced modulo 2^32 before the xor.
- Where the headers disagree with the `.c` files, the `.c` definitions are modelled. The disagreements are: `boids[MAX_BOIDS+1]` against `+2`, the `UpdateBoids` signature, the `hash_table` type, `hash_cell`, declared with external linkage at src/spatial_hash.h:33 but defined `static` at src/spatial_hash.c:26, and the `Boid` struct of src/boids.h:30-37, which has no `neighborCount` or `nearNeighborCount` although src/boids.c:48, 91 and 187 use both. The model's `Boid` carries them.
- `int_log2` takes an unbounded integer. Halving a non-negative C int is the same, so its 32-bit width does not matter here. The `exit(0)` on a negative argument is `None`.
- The neighbour query does not wrap cell coordinates at the grid edge, although the world itself wraps. The model follows the code (`SpatialHash.EdgeCellsAreNotWrapped`).
- `Vector2Wrap` shifts once, so only coordinates less than one extent outside come back inside. The model follows the code (`Torus.WrapFarOutside`).
- The hash-collision facts are proved for cell (0,0) as examples, not for every cell.
- Torus.DistanceAxis: its own contract states only non-negativity. What it computes is stated by `Torus.DistanceAxisIsDisplacementLength`.
- Simulation.PredatedIff: the minimum-image form of the flag is promised only when each radius is at most the integer half of both extents, which for PREDATOR_RADIUS means a world of at least 180 x 180. In a smaller world with an odd extent the code's flag can differ from it. The flag as the code computes it is stated for every world by `Simulation.DecidePredated`.
- Simulation.PredatedByDistance: promised under the same radius condition as `Simulation.PredatedIff`, for the same reason.

## Findings

| source | as written | input that shows it | evidently intended | confidence | as-written member | corrected member |
|---|---|---|---|---|---|---|
| src/boids.c:17-21 | Each component of `Vector2SubtractTorus` is compared against `SCREEN_WIDTH / 2` (or `SCREEN_HEIGHT / 2`), an integer division. The `predated` flag built on it still agrees with the minimum-image test in worlds of at least 180 x 180 (`Simulation.WithinAsWrittenIff`). | Width 5, x difference 2.75: the result is 2.75, but the shortest image is -2.25. Differences 2.5 and -2.5 both give 2.5, so the displacement is not antisymmetric. | Compare against the exact half, extent / 2.0, which gives the minimum-image displacement. | medium; only odd screen extents are affected, not executed | Torus.SubtractAxisAsWrittenOddNotMinimum | Torus.SubtractAxisMinimumImage |
| src/boids.c:31-32 | `DistanceOnTorus` reflects `dx` only when `dx > SCREEN_WIDTH / 2`, again with an integer half. | Width 5, points 2.25 apart along x: the code reports 2.75, but the torus distance is 2.25. | Reflect above the exact half, so the distance is the length of the displacement. | medium; only odd screen extents are affected, not executed | Torus.DistanceAsWrittenOddTooLong | Torus.DistanceSqIsDisplacementNorm |

=== FILE: density.dfy ===
/**
 * The density colouring of src/boids.c: `int_log2` turns a boid's neighbour
 * count into a base-2 logarithm clamped to 10, which indexes the 11-entry
 * colour table.
 */
module Density {
  import opened Wrappers

  /** The number of entries of the colour table. */
  const COLOR_COUNT: nat := 11

  /** The largest value `int_log2` returns. */
  const LOG_CAP: nat := 10

  function Pow2(n: nat): (p: nat)
    ensures p >= 1
  {
    if n == 0 then 1 else 2 * Pow2(n - 1)
  }

  /** The exact floor of the base-2 logarithm, with 0 for 0: the number of halvings that leave a nonzero value. */
  function Log2Floor(x: nat): nat {
    if x <= 1 then 0 else 1 + Log2Floor(x / 2)
  }

  /** The reference value of `int_log2` on a non-negative argument. */
  function Log2Clamped(x: nat): nat {
    if Log2Floor(x) < LOG_CAP then Log2Floor(x) else LOG_CAP
  }

  /**
   * `int_log2(x)`. A negative argument ends the program (`exit(0)`), which is
   * `None` here; otherwise the argument is shifted right until it is zero,
   * counting the shifts that leave it nonzero, and the count stops at 10.
   */
  method IntLog2(x: int) returns (r: Option<nat>)
    ensures x < 0 <==> r.None?
    ensures x >= 0 ==> r == Some(Log2Clamped(x))
  {
    if x < 0 {
      return None;
    }
    if x <= 0 {
      return Some(0);
    }
    var v: nat := x;
    var log: nat := 0;
    while true
      invariant 1 <= v && log < LOG_CAP
      invariant Log2Floor(x) == log + Log2Floor(v)
      decreases v
    {
      v := v / 2;
      if v == 0 {
        return Some(log);
      }
      log := log + 1;
      if log >= LOG_CAP {
        return Some(LOG_CAP);
      }
    }
  }

  /** The logarithm brackets its argument: 2^r <= x < 2^(r + 1). */
  lemma {:induction false} Log2FloorBrackets(x: nat)
    requires x >= 1
    ensures Pow2(Log2Floor(x)) <= x < Pow2(Log2Floor(x) + 1)
  {
    if x > 1 {
      Log2FloorBrackets(x / 2);
    }
  }

  /** Below 1024 the clamped logarithm is the exact one, and brackets its argument. */
  lemma Log2ClampedBelowCap(x: nat)
    requires 1 <= x < 1024
    ensures Log2Clamped(x) == Log2Floor(x)
    ensures Pow2(Log2Clamped(x)) <= x < Pow2(Log2Clamped(x) + 1)
  {
    Log2FloorBrackets(x);
    assert Pow2(LOG_CAP) == 1024;
    if Log2Floor(x) >= LOG_CAP {
      Pow2Monotone(LOG_CAP, Log2Floor(x));
    }
  }

  /** From 1024 on the result is the cap. */
  lemma Log2ClampedAtCap(x: nat)
    requires x >= 1024
    ensures Log2Clamped(x) == LOG_CAP
  {
    Log2FloorBrackets(x);
    assert Pow2(LOG_CAP) == 1024;
    if Log2Floor(x) < LOG_CAP {
      Pow2Monotone(Log2Floor(x) + 1, LOG_CAP);
    }
  }

  lemma {:induction false} Pow2Monotone(m: nat, n: nat)
    requires m <= n
    ensures Pow2(m) <= Pow2(n)
  {
    if m < n {
      Pow2Monotone(m, n - 1);
    }
  }

  lemma {:induction false} Log2FloorMonotone(x: nat, y: nat)
    requires x <= y
    ensures Log2Floor(x) <= Log2Floor(y)
  {
    if x > 1 {
      Log2FloorMonotone(x / 2, y / 2);
    }
  }

  /** A larger count never gets a smaller colour. */
  lemma Log2ClampedMonotone(x: nat, y: nat)
    requires x <= y
    ensures Log2Clamped(x) <= Log2Clamped(y)
  {
    Log2FloorMonotone(x, y);
  }

  /**
   * The colour index `int_log2(neighborCount + nearNeighborCount)` that
   * `DrawBoid` looks up: defined exactly when the sum is not negative, and then
   * always an index into the colour table.
   */
  function ColorIndex(neighborCount: int, nearNeighborCount: int): (r: Option<nat>)
    ensures r.Some? <==> neighborCount + nearNeighborCount >= 0
    ensures r.Some? ==> r.value < COLOR_COUNT
  {
    var total := neighborCount + nearNeighborCount;
    if total < 0 then None else Some(Log2Clamped(total))
  }
}

=== FILE: simulation.dfy ===
/**
 * The discrete part of `UpdateBoids` in src/boids.c. The boid array holds
 * MAX_BOIDS flocking boids, then the predator, then the mouse. A tick has two
 * phases. First every flocking boid computes its shadow fields
 * (`velocity_update`, `position_update`) and its `predated` flag from the
 * live fields. Then a serial pass commits the shadow fields, rebuilds the
 * spatial hash, and moves the predator.
 *
 * The float steering (flocking forces, speed clamp, predator adjustment) is
 * not modelled: its results come in as parameters, and so does the frame
 * step `GetFrameTime() * 60`.
 */
module Simulation {
  import opened Vector
  import opened Torus
  import opened SpatialHash

  const MAX_BOIDS: nat := 10000
  /** The predator lives just after the flock. */
  const PREDATOR_INDEX: nat := MAX_BOIDS
  /** The mouse pseudo-boid lives after the predator. */
  const MOUSE_INDEX: nat := MAX_BOIDS + 1
  /** Length of the boid array: the flock, the predator and the mouse. */
  const BOID_SLOTS: nat := MAX_BOIDS + 2
  const PREDATOR_RADIUS: real := 90.0

  datatype Boid = Boid(
    position: Vec2,
    velocity: Vec2,
    positionUpdate: Vec2,
    velocityUpdate: Vec2,
    predated: bool,
    isPredator: bool,
    neighborCount: int,
    nearNeighborCount: int)

  predicate ValidFlock(boids: seq<Boid>) {
    |boids| == BOID_SLOTS
  }

  /** `Vector2Length(v) < radius`, without the square root. */
  predicate Within(v: Vec2, radius: real) {
    0.0 < radius && NormSq(v) < Sq(radius)
  }

  /**
   * A radius the world is wide and high enough for: at most the integer half
   * of each extent. For PREDATOR_RADIUS this is a world of at least 180 x 180.
   */
  predicate RadiusFits(radius: real, w: World) {
    radius <= CHalf(w.width) as real && radius <= CHalf(w.height) as real
  }

  /**
   * Between points inside the world, a radius test on the code's
   * displacement `Vector2SubtractTorus` gives the same answer as on the
   * minimum-image displacement, for every radius the world fits. Odd
   * extents included: where the two displacements differ, both are too long.
   */
  lemma WithinAsWrittenIff(a: Vec2, b: Vec2, radius: real, w: World)
    ensures ValidWorld(w) && InWorld(a, w) && InWorld(b, w) && RadiusFits(radius, w) ==>
              (Within(SubtractTorusAsWritten(a, b, w), radius) <==> Within(SubtractTorus(a, b, w), radius))
  {
    if ValidWorld(w) && InWorld(a, w) && InWorld(b, w) && RadiusFits(radius, w) {
      var u, v := SubtractTorusAsWritten(a, b, w), SubtractTorus(a, b, w);
      SubtractAxisAsWrittenAgrees(a.x - b.x, w.width);
      SubtractAxisAsWrittenAgrees(a.y - b.y, w.height);
      if 0.0 < radius {
        LongAxisOutside(u.x, u.y, radius, CHalf(w.width) as real);
        LongAxisOutside(v.x, v.y, radius, CHalf(w.width) as real);
        LongAxisOutside(u.y, u.x, radius, CHalf(w.height) as real);
        LongAxisOutside(v.y, v.x, radius, CHalf(w.height) as real);
      }
    }
  }

  /** A component longer than a bound of at least the radius puts the vector outside the radius. */
  lemma LongAxisOutside(x: real, y: real, radius: real, bound: real)
    requires 0.0 < radius <= bound
    ensures Abs(x) > bound ==> Sq(radius) <= Sq(x) + Sq(y)
  {
    if Abs(x) > bound {
      SquareMonotone(radius, Abs(x));
      AbsSquare(x);
      SquareNonNegative(y);
    }
  }

  // ---------------------------------------------------------------- predated

  /**
   * The predator test: the flag is set when the predator is near by the
   * code's displacement and cleared otherwise. Nothing else changes, and in
   * a world the radius fits the test is the minimum-image one.
   */
  function PredatorCheck(b: Boid, predator: Vec2, w: World): (r: Boid)
    ensures r == b.(predated := r.predated)
    ensures ValidWorld(w) && InWorld(b.position, w) && InWorld(predator, w) && RadiusFits(PREDATOR_RADIUS, w) ==>
              (r.predated <==> Within(SubtractTorus(b.position, predator, w), PREDATOR_RADIUS))
  {
    WithinAsWrittenIff(b.position, predator, PREDATOR_RADIUS, w);
    b.(predated := Within(SubtractTorusAsWritten(b.position, predator, w), PREDATOR_RADIUS))
  }

  /**
   * The mouse test: it only ever sets the flag, only while the mouse is
   * pressed, and never touches another field.
   */
  function MouseCheck(b: Boid, mouse: Vec2, mousePressed: bool, mouseRadius: real, w: World): (r: Boid)
    ensures r == b.(predated := r.predated)
    ensures b.predated ==> r.predated
    ensures !mousePressed ==> r == b
  {
    if mousePressed && Within(SubtractTorusAsWritten(b.position, mouse, w), mouseRadius) then b.(predated := true) else b
  }

  /**
   * The two tests in the order the update runs them. Afterwards the flag is
   * set exactly when the boid is within the predator radius of the
   * predator, or the mouse is pressed and the boid is within the mouse
   * radius of the mouse, both by the code's displacement; whatever the flag
   * was before does not matter, and nothing else changes.
   */
  function DecidePredated(b: Boid, predator: Vec2, mouse: Vec2, mousePressed: bool, mouseRadius: real, w: World): (r: Boid)
    ensures r == b.(predated := r.predated)
    ensures r.predated <==>
              Within(SubtractTorusAsWritten(b.position, predator, w), PREDATOR_RADIUS) ||
              (mousePressed && Within(SubtractTorusAsWritten(b.position, mouse, w), mouseRadius))
  {
    MouseCheck(PredatorCheck(b, predator, w), mouse, mousePressed, mouseRadius, w)
  }

  /**
   * In a world both radii fit, with the boid, the predator and (when
   * pressed) the mouse inside it, the flag is the same test on the
   * minimum-image displacement.
   */
  lemma PredatedIff(b: Boid, predator: Vec2, mouse: Vec2, mousePressed: bool, mouseRadius: real, w: World)
    requires ValidWorld(w) && InWorld(b.position, w) && InWorld(predator, w) && RadiusFits(PREDATOR_RADIUS, w)
    requires mousePressed ==> InWorld(mouse, w) && RadiusFits(mouseRadius, w)
    ensures DecidePredated(b, predator, mouse, mousePressed, mouseRadius, w).predated <==>
              Within(SubtractTorus(b.position, predator, w), PREDATOR_RADIUS) ||
              (mousePressed && Within(SubtractTorus(b.position, mouse, w), mouseRadius))
  {
    WithinAsWrittenIff(b.position, predator, PREDATOR_RADIUS, w);
    if mousePressed {
      WithinAsWrittenIff(b.position, mouse, mouseRadius, w);
    }
  }

  /** Two positions inside the world differ by less than one extent along each axis. */
  lemma InWorldDifference(a: Vec2, b: Vec2, w: World)
    requires ValidWorld(w) && InWorld(a, w) && InWorld(b, w)
    ensures -(w.width as real) < a.x - b.x < w.width as real
    ensures -(w.height as real) < a.y - b.y < w.height as real
  {
  }

  /**
   * Under the same conditions the flag is the distance test of
   * `DistanceOnTorus`: squared torus distance to the predator below 90^2, or
   * (mouse pressed) squared torus distance to the mouse below the squared
   * mouse radius.
   */
  lemma PredatedByDistance(b: Boid, predator: Vec2, mouse: Vec2, mousePressed: bool, mouseRadius: real, w: World)
    requires ValidWorld(w) && InWorld(b.position, w) && InWorld(predator, w) && RadiusFits(PREDATOR_RADIUS, w)
    requires mousePressed ==> InWorld(mouse, w) && RadiusFits(mouseRadius, w)
    ensures DecidePredated(b, predator, mouse, mousePressed, mouseRadius, w).predated <==>
              DistanceSq(b.position, predator, w) < Sq(PREDATOR_RADIUS) ||
              (mousePressed && 0.0 < mouseRadius && DistanceSq(b.position, mouse, w) < Sq(mouseRadius))
  {
    PredatedIff(b, predator, mouse, mousePressed, mouseRadius, w);
    InWorldDifference(b.position, predator, w);
    DistanceSqIsDisplacementNorm(b.position, predator, w);
    if mousePressed {
      InWorldDifference(b.position, mouse, w);
      DistanceSqIsDisplacementNorm(b.position, mouse, w);
    }
  }

  // ---------------------------------------------------------------- update phase

  /** What the float steering produced for one boid: its clamped new velocity and the two neighbour counts. */
  datatype Steering = Steering(velocity: Vec2, neighborCount: int, nearNeighborCount: int)

  /** The displacement of one move is shorter than the world along each axis. */
  predicate ShortStep(velocity: Vec2, step: real, w: World) {
    Abs(velocity.x * step) < w.width as real && Abs(velocity.y * step) < w.height as real
  }

  /** A move by `velocity * step`, followed by one wrap; a short move from inside the world lands inside it. */
  function Move(position: Vec2, velocity: Vec2, step: real, w: World): (r: Vec2)
    ensures ValidWorld(w) && InWorld(position, w) && ShortStep(velocity, step, w) ==> InWorld(r, w)
  {
    Wrap(Add(position, Scale(velocity, step)), w)
  }

  /**
   * The parallel body of `UpdateBoids` for one flocking boid. It reads only
   * live fields and writes the shadow fields, the counts and the flag: the
   * shadow velocity is the steered one, the shadow position the move by it,
   * which stays in the world for a short step.
   */
  function UpdateBoid(b: Boid, s: Steering, step: real, predator: Vec2, mouse: Vec2,
                      mousePressed: bool, mouseRadius: real, w: World): (r: Boid)
    ensures r == b.(velocityUpdate := r.velocityUpdate, positionUpdate := r.positionUpdate, predated := r.predated,
                    neighborCount := r.neighborCount, nearNeighborCount := r.nearNeighborCount)
    ensures r.velocityUpdate == s.velocity && r.positionUpdate == Move(b.position, s.velocity, step, w)
    ensures r.neighborCount == s.neighborCount && r.nearNeighborCount == s.nearNeighborCount
    ensures r.predated <==>
              Within(SubtractTorusAsWritten(b.position, predator, w), PREDATOR_RADIUS) ||
              (mousePressed && Within(SubtractTorusAsWritten(b.position, mouse, w), mouseRadius))
    ensures ValidWorld(w) && InWorld(b.position, w) && ShortStep(s.velocity, step, w) ==> InWorld(r.positionUpdate, w)
  {
    var counted := b.(neighborCount := s.neighborCount, nearNeighborCount := s.nearNeighborCount);
    var flagged := DecidePredated(counted, predator, mouse, mousePressed, mouseRadius, w);
    flagged.(velocityUpdate := s.velocity, positionUpdate := Move(b.position, s.velocity, step, w))
  }

  /**
   * The update phase, run as a sequential loop over the flock. Each iteration
   * reads the predator and mouse positions from the array it is writing, yet
   * every boid ends as if updated from the state before the phase. This is
   * the ascending order only; other orders of the OpenMP iterations are not
   * verified.
   */
  method UpdatePhase(boids: seq<Boid>, steering: seq<Steering>, step: real,
                     mousePressed: bool, mouseRadius: real, w: World) returns (r: seq<Boid>)
    requires ValidFlock(boids) && |steering| == MAX_BOIDS && ValidWorld(w)
    ensures ValidFlock(r)
    ensures forall i :: 0 <= i < MAX_BOIDS ==>
              r[i] == UpdateBoid(boids[i], steering[i], step, boids[PREDATOR_INDEX].position,
                                 boids[MOUSE_INDEX].position, mousePressed, mouseRadius, w)
    ensures r[PREDATOR_INDEX] == boids[PREDATOR_INDEX] && r[MOUSE_INDEX] == boids[MOUSE_INDEX]
    ensures forall i :: 0 <= i < |r| ==> r[i].position == boids[i].position && r[i].velocity == boids[i].velocity
  {
    r := boids;
    var i := 0;
    while i < MAX_BOIDS
      invariant 0 <= i <= MAX_BOIDS && |r| == BOID_SLOTS
      invariant forall j :: 0 <= j < i ==>
                  r[j] == UpdateBoid(boids[j], steering[j], step, boids[PREDATOR_INDEX].position,
                                     boids[MOUSE_INDEX].position, mousePressed, mouseRadius, w)
      invariant forall j :: i <= j < |r| ==> r[j] == boids[j]
    {
      r := r[i := UpdateBoid(r[i], steering[i], step, r[PREDATOR_INDEX].position,
                             r[MOUSE_INDEX].position, mousePressed, mouseRadius, w)];
      i := i + 1;
    }
  }

  // ---------------------------------------------------------------- commit and rebuild

  /**
   * A flocking boid after the commit: its live position and velocity agree
   * with its shadow ones, and every other field is as it was.
   */
  function Committed(b: Boid): (r: Boid)
    ensures r.position == r.positionUpdate && r.velocity == r.velocityUpdate
    ensures r.(position := b.position, velocity := b.velocity) == b
  {
    b.(position := b.positionUpdate, velocity := b.velocityUpdate)
  }

  /**
   * The positions the rebuild inserts, boid by boid: the committed positions
   * of the flock, then the predator at the position it has before it moves.
   */
  function HashedPositions(boids: seq<Boid>): (positions: seq<Vec2>)
    requires ValidFlock(boids)
    ensures |positions| == MAX_BOIDS + 1
  {
    seq(MAX_BOIDS + 1, i requires 0 <= i <= MAX_BOIDS =>
      if i < MAX_BOIDS then boids[i].positionUpdate else boids[i].position)
  }

  /** The array once boids 0, ..., n - 1 are committed and the rest are not. */
  function CommittedUpTo(boids: seq<Boid>, n: nat): (r: seq<Boid>)
    ensures |r| == |boids|
  {
    seq(|boids|, j requires 0 <= j < |boids| => if j < n then Committed(boids[j]) else boids[j])
  }

  /**
   * One iteration of the commit loop on the array `cur`, in which boids
   * 0, ..., i - 1 are committed: commit boid i in place, then insert it at
   * its new position.
   */
  method CommitOne(boids: seq<Boid>, cur: seq<Boid>, table: Table, i: nat) returns (r: seq<Boid>, table': Table)
    requires ValidFlock(boids) && ValidTable(table) && i < MAX_BOIDS
    requires cur == CommittedUpTo(boids, i)
    ensures ValidTable(table')
    ensures r == CommittedUpTo(boids, i + 1)
    ensures InsertFrom(table', HomesOf(HashedPositions(boids)), i + 1) == InsertFrom(table, HomesOf(HashedPositions(boids)), i)
  {
    r := cur[i := Committed(cur[i])];
    assert r == CommittedUpTo(boids, i + 1);
    InsertFromStep(table, HomesOf(HashedPositions(boids)), i, r[i].position);
    table' := Insert(table, i, r[i].position);
  }

  /**
   * The commit loop: clear the hash, then commit each flocking boid in turn
   * and insert it at its new position. What is left to insert afterwards is
   * the predator alone.
   */
  method CommitFlock(boids: seq<Boid>, hash: Table) returns (r: seq<Boid>, table: Table)
    requires ValidFlock(boids) && ValidTable(hash)
    ensures r == CommittedUpTo(boids, MAX_BOIDS) && ValidTable(table)
    ensures InsertFrom(table, HomesOf(HashedPositions(boids)), MAX_BOIDS) == Rebuild(HashedPositions(boids))
  {
    table := ClearTable(hash);
    assert table == EmptyTable();
    r := boids;
    assert r == CommittedUpTo(boids, 0);
    var i := 0;
    while i < MAX_BOIDS
      invariant 0 <= i <= MAX_BOIDS && ValidTable(table)
      invariant r == CommittedUpTo(boids, i)
      invariant InsertFrom(table, HomesOf(HashedPositions(boids)), i) == Rebuild(HashedPositions(boids))
    {
      r, table := CommitOne(boids, r, table, i);
      i := i + 1;
    }
  }

  /**
   * The predator takes its new velocity, then moves by it and wraps. Only
   * its position and velocity change, and a short move keeps it in the world.
   */
  function MovePredator(predator: Boid, velocity: Vec2, step: real, w: World): (r: Boid)
    ensures r == predator.(position := r.position, velocity := velocity)
    ensures ValidWorld(w) && InWorld(predator.position, w) && ShortStep(velocity, step, w) ==> InWorld(r.position, w)
  {
    predator.(velocity := velocity, position := Move(predator.position, velocity, step, w))
  }

  /** The last insertion of the rebuild: the predator at its current position, which completes the rebuild. */
  method InsertPredator(boids: seq<Boid>, flockTable: Table) returns (table: Table)
    requires ValidFlock(boids) && ValidTable(flockTable)
    requires InsertFrom(flockTable, HomesOf(HashedPositions(boids)), MAX_BOIDS) == Rebuild(HashedPositions(boids))
    ensures table == Rebuild(HashedPositions(boids))
    ensures TotalEntries(table) == MAX_BOIDS + 1
    ensures forall q :: multiset(Entries(table))[q] == if 0 <= q <= MAX_BOIDS then 1 else 0
  {
    var homes := HomesOf(HashedPositions(boids));
    InsertFromStep(flockTable, homes, PREDATOR_INDEX, boids[PREDATOR_INDEX].position);
    table := Insert(flockTable, PREDATOR_INDEX, boids[PREDATOR_INDEX].position);
    assert InsertFrom(table, homes, PREDATOR_INDEX + 1) == table;
  }

  /** The boid side of the serial end: the flock committed, the predator moved, the mouse untouched. */
  method CommitAndMove(boids: seq<Boid>, hash: Table, predatorVelocity: Vec2, step: real, w: World)
    returns (r: seq<Boid>, flockTable: Table)
    requires ValidFlock(boids) && ValidTable(hash) && ValidWorld(w)
    ensures ValidFlock(r) && ValidTable(flockTable)
    ensures forall i :: 0 <= i < MAX_BOIDS ==> r[i] == Committed(boids[i])
    ensures r[PREDATOR_INDEX] == MovePredator(boids[PREDATOR_INDEX], predatorVelocity, step, w)
    ensures r[MOUSE_INDEX] == boids[MOUSE_INDEX]
    ensures InsertFrom(flockTable, HomesOf(HashedPositions(boids)), MAX_BOIDS) == Rebuild(HashedPositions(boids))
  {
    var committed;
    committed, flockTable := CommitFlock(boids, hash);
    var predator := MovePredator(boids[PREDATOR_INDEX], predatorVelocity, step, w);
    r := committed[PREDATOR_INDEX := predator];
    CommittedFlockWith(boids, predator);
  }

  /** Replacing the predator of the committed array leaves the flock committed and the mouse as it was. */
  lemma CommittedFlockWith(boids: seq<Boid>, predator: Boid)
    requires ValidFlock(boids)
    ensures forall i :: 0 <= i < MAX_BOIDS ==> CommittedUpTo(boids, MAX_BOIDS)[PREDATOR_INDEX := predator][i] == Committed(boids[i])
    ensures CommittedUpTo(boids, MAX_BOIDS)[PREDATOR_INDEX := predator][MOUSE_INDEX] == boids[MOUSE_INDEX]
  {
  }

  /**
   * The serial end of `UpdateBoids`: the commit loop; the predator inserted
   * at its current position; then the predator moved with its new velocity
   * (the clamped sum of its velocity and its adjustment). The mouse is
   * neither committed nor inserted. The commit loop does not touch the
   * predator, so the position it is inserted at is its position on entry.
   */
  method CommitAndRebuild(boids: seq<Boid>, hash: Table, predatorVelocity: Vec2, step: real, w: World)
    returns (r: seq<Boid>, table: Table)
    requires ValidFlock(boids) && ValidTable(hash) && ValidWorld(w)
    ensures ValidFlock(r) && ValidTable(table)
    ensures forall i :: 0 <= i < MAX_BOIDS ==> r[i] == Committed(boids[i])
    ensures r[PREDATOR_INDEX] == MovePredator(boids[PREDATOR_INDEX], predatorVelocity, step, w)
    ensures r[MOUSE_INDEX] == boids[MOUSE_INDEX]
    ensures table == Rebuild(HashedPositions(boids))
  {
    var flockTable;
    r, flockTable := CommitAndMove(boids, hash, predatorVelocity, step, w);
    table := InsertPredator(boids, flockTable);
  }

  /**
   * After the rebuild each flocking boid is in the bucket of its committed
   * position, the predator in the bucket of its pre-move position, and each
   * reference in a bucket belongs there.
   */
  lemma RebuildAfterCommit(boids: seq<Boid>)
    requires ValidFlock(boids)
    ensures forall q :: 0 <= q < MAX_BOIDS ==>
              q in Rebuild(HashedPositions(boids))[BucketOf(Committed(boids[q]).position)]
    ensures PREDATOR_INDEX in Rebuild(HashedPositions(boids))[BucketOf(boids[PREDATOR_INDEX].position)]
    ensures Placed(Rebuild(HashedPositions(boids)), HomesOf(HashedPositions(boids)))
  {
    var positions := HashedPositions(boids);
    RebuildPlaces(positions);
    assert positions[PREDATOR_INDEX] == boids[PREDATOR_INDEX].position;
    FlockAtCommittedHome(boids, positions, Rebuild(positions));
  }

  lemma FlockAtCommittedHome(boids: seq<Boid>, positions: seq<Vec2>, t: Table)
    requires ValidFlock(boids) && positions == HashedPositions(boids) && ValidTable(t)
    requires forall q: nat :: q < |positions| ==> q in t[BucketOf(positions[q])]
    ensures forall q :: 0 <= q < MAX_BOIDS ==> q in t[BucketOf(Committed(boids[q]).position)]
  {
    forall q | 0 <= q < MAX_BOIDS
      ensures q in t[BucketOf(Committed(boids[q]).position)]
    {
      assert positions[q] == Committed(boids[q]).position;
    }
  }

  // ---------------------------------------------------------------- a whole tick

  /** The flock and the predator are inside the world; the mouse may be anywhere. */
  predicate FlockInWorld(boids: seq<Boid>, w: World)
    requires ValidFlock(boids)
  {
    forall i :: 0 <= i <= PREDATOR_INDEX ==> InWorld(boids[i].position, w)
  }

  /**
   * `UpdateBoids`: the update phase, then the commit, the rebuild and the
   * predator move. Every flocking boid ends at its own move from where it
   * was, with its steered velocity and counts and with its flag decided from
   * the positions before the tick. The predator has moved, the mouse is
   * untouched, and the hash is the rebuild of the flock's new positions
   * and the predator's position before its move. Short moves keep the flock
   * and the predator inside the world.
   */
  method UpdateBoids(boids: seq<Boid>, hash: Table, steering: seq<Steering>, predatorVelocity: Vec2,
                     step: real, mousePressed: bool, mouseRadius: real, w: World)
    returns (r: seq<Boid>, table: Table)
    requires ValidFlock(boids) && ValidTable(hash) && |steering| == MAX_BOIDS && ValidWorld(w)
    ensures ValidFlock(r) && ValidTable(table)
    ensures forall i :: 0 <= i < MAX_BOIDS ==>
              r[i].position == Move(boids[i].position, steering[i].velocity, step, w) &&
              r[i].velocity == steering[i].velocity
    ensures forall i :: 0 <= i < MAX_BOIDS ==>
              r[i].neighborCount == steering[i].neighborCount && r[i].nearNeighborCount == steering[i].nearNeighborCount
    ensures forall i :: 0 <= i < MAX_BOIDS ==>
              (r[i].predated <==>
                 Within(SubtractTorusAsWritten(boids[i].position, boids[PREDATOR_INDEX].position, w), PREDATOR_RADIUS) ||
                 (mousePressed && Within(SubtractTorusAsWritten(boids[i].position, boids[MOUSE_INDEX].position, w), mouseRadius)))
    ensures forall i :: 0 <= i < MAX_BOIDS ==>
              r[i] == Committed(UpdateBoid(boids[i], steering[i], step, boids[PREDATOR_INDEX].position,
                                           boids[MOUSE_INDEX].position, mousePressed, mouseRadius, w))
    ensures r[PREDATOR_INDEX] == MovePredator(boids[PREDATOR_INDEX], predatorVelocity, step, w)
    ensures r[MOUSE_INDEX] == boids[MOUSE_INDEX]
    ensures table == Rebuild(seq(MAX_BOIDS + 1, i requires 0 <= i <= MAX_BOIDS =>
                               if i < MAX_BOIDS then r[i].position else boids[PREDATOR_INDEX].position))
    ensures FlockInWorld(boids, w) && ShortStep(predatorVelocity, step, w) &&
            (forall i :: 0 <= i < MAX_BOIDS ==> ShortStep(steering[i].velocity, step, w))
            ==> FlockInWorld(r, w)
  {
    var updated := UpdatePhase(boids, steering, step, mousePressed, mouseRadius, w);
    r, table := CommitAndRebuild(updated, hash, predatorVelocity, step, w);
    HashedAfterCommit(updated, r);
  }

  /**
   * The positions the rebuild inserted, read off the array after the
   * commit: the flock's new live positions, then the predator's position
   * from before its move.
   */
  lemma HashedAfterCommit(updated: seq<Boid>, r: seq<Boid>)
    requires ValidFlock(updated) && ValidFlock(r)
    requires forall i :: 0 <= i < MAX_BOIDS ==> r[i] == Committed(updated[i])
    ensures HashedPositions(updated) ==
              seq(MAX_BOIDS + 1, i requires 0 <= i <= MAX_BOIDS =>
                if i < MAX_BOIDS then r[i].position else updated[PREDATOR_INDEX].position)
  {
  }
}

=== FILE: spatial_hash.dfy ===
/**
 * The spatial hash of src/spatial_hash.c: a fixed table of HASH_SIZE singly
 * linked lists of boid references. A list is a sequence whose index 0 is its
 * head, and a boid reference is the boid's index in the boid array, so two
 * references are equal exactly when the C pointers are.
 *
 * The list surgery and the neighbour scan are stated over bucket indices; the
 * hash only decides which indices are used, as in the C code, which computes
 * the index first and then edits or walks the list.
 */
module SpatialHash {
  import opened Vector

  /** Number of buckets in the table. */
  const HASH_SIZE: nat := 10007
  /** Edge length of one grid cell, in world units. */
  const CELL_SIZE: real := 50.0
  /** Number of cells visited by a neighbour query (a 3 x 3 block). */
  const NEIGHBOURHOOD: nat := 9

  type BoidId = nat
  type Bucket = seq<BoidId>
  type Table = seq<Bucket>

  predicate ValidTable(t: Table) {
    |t| == HASH_SIZE
  }

  // ---------------------------------------------------------------- lists

  /** `length`: counts the nodes of a list by walking it. */
  method Length(list: Bucket) returns (count: nat)
    ensures count == |list|
  {
    count := 0;
    var node := list;
    while node != []
      invariant count + |node| == |list|
      decreases |node|
    {
      count := count + 1;
      node := node[1..];
    }
  }

  // ---------------------------------------------------------------- hashing

  /** A C `int` reinterpreted as `unsigned`: two's complement, reduced modulo 2^32. */
  function AsUnsigned(x: int): nat {
    x % 0x1_0000_0000
  }

  /** Bitwise exclusive or of two 32-bit unsigned values. */
  function Xor32(a: nat, b: nat): nat
    requires a < 0x1_0000_0000 && b < 0x1_0000_0000
  {
    ((a as bv32) ^ (b as bv32)) as nat
  }

  /**
   * `hash_cell`. Both products are taken modulo 2^32: the C code multiplies
   * signed ints, and the model assumes the overflow wraps as two's complement.
   * The xor and the final `%` act on the 32-bit unsigned values.
   */
  function HashCell(cellX: int, cellY: int): (index: nat)
    ensures index < HASH_SIZE
  {
    var hx := (AsUnsigned(cellX) * 73856093) % 0x1_0000_0000;
    var hy := (AsUnsigned(cellY) * 19349663) % 0x1_0000_0000;
    Xor32(hx, hy) % HASH_SIZE
  }

  /** C's `(int)` conversion of a floating value: truncation toward zero. */
  function TruncateToInt(r: real): int {
    if r >= 0.0 then r.Floor else -((-r).Floor)
  }

  /** Cell coordinate of one position component: `(int)(coord / CELL_SIZE)`. */
  function CellOf(coord: real): int {
    TruncateToInt(coord / CELL_SIZE)
  }

  /** Bucket of the cell that contains `pos`. */
  function BucketOf(pos: Vec2): (index: nat)
    ensures index < HASH_SIZE
  {
    HashCell(CellOf(pos.x), CellOf(pos.y))
  }

  // ---------------------------------------------------------------- table contents

  /** Every reference in the table, bucket by bucket, each list from its head. */
  function Entries(t: seq<Bucket>): seq<BoidId> {
    if |t| == 0 then [] else t[0] + Entries(t[1..])
  }

  /** Sum of the bucket lengths. */
  function TotalEntries(t: seq<Bucket>): nat {
    |Entries(t)|
  }

  lemma {:induction false} EntriesOfEmptyBuckets(t: seq<Bucket>)
    requires forall i :: 0 <= i < |t| ==> t[i] == []
    ensures Entries(t) == []
    decreases |t|
  {
    if |t| > 0 {
      EntriesOfEmptyBuckets(t[1..]);
    }
  }

  /** Prepending `b` to one bucket adds exactly one reference, `b`, to the table. */
  lemma {:induction false} EntriesPrepend(t: seq<Bucket>, h: nat, b: BoidId)
    requires h < |t|
    ensures multiset(Entries(t[h := [b] + t[h]])) == multiset(Entries(t)) + multiset{b}
    ensures |Entries(t[h := [b] + t[h]])| == |Entries(t)| + 1
    decreases |t|
  {
    var u := t[h := [b] + t[h]];
    assert Entries(t) == t[0] + Entries(t[1..]);
    assert Entries(u) == u[0] + Entries(u[1..]);
    if h == 0 {
      assert u[1..] == t[1..];
    } else {
      assert u[1..] == t[1..][h - 1 := [b] + t[1..][h - 1]];
      EntriesPrepend(t[1..], h - 1, b);
    }
  }

  // ---------------------------------------------------------------- init, clear, insert

  /** A table of HASH_SIZE empty lists. */
  function EmptyTable(): (t: Table)
    ensures ValidTable(t)
    ensures forall i :: 0 <= i < |t| ==> t[i] == []
    ensures TotalEntries(t) == 0
  {
    var t: Table := seq(HASH_SIZE, _ => []);
    EntriesOfEmptyBuckets(t);
    t
  }

  /** `init_spatial_hash`: every bucket starts empty. */
  function InitTable(): (t: Table)
    ensures ValidTable(t)
    ensures forall i :: 0 <= i < |t| ==> t[i] == []
    ensures Entries(t) == []
  {
    EmptyTable()
  }

  /** `clear_spatial_hash`: whatever the table held, every bucket ends empty. */
  function ClearTable(t: Table): (r: Table)
    ensures ValidTable(r)
    ensures forall i :: 0 <= i < |r| ==> r[i] == []
    ensures Entries(r) == []
  {
    EmptyTable()
  }

  /** List surgery of `insert_boid`: a new node at the head of bucket `index`, all else unchanged. */
  function InsertAt(t: Table, b: BoidId, index: nat): (r: Table)
    requires ValidTable(t) && index < HASH_SIZE
    ensures ValidTable(r)
    ensures r[index] == [b] + t[index]
    ensures forall i :: 0 <= i < |r| && i != index ==> r[i] == t[i]
    ensures TotalEntries(r) == TotalEntries(t) + 1
    ensures multiset(Entries(r)) == multiset(Entries(t)) + multiset{b}
  {
    EntriesPrepend(t, index, b);
    t[index := [b] + t[index]]
  }

  /**
   * `insert_boid`: one new node at the head of the bucket of `pos`'s cell;
   * the old list becomes its tail and every other bucket is unchanged.
   */
  function Insert(t: Table, b: BoidId, pos: Vec2): (r: Table)
    requires ValidTable(t)
    ensures ValidTable(r)
    ensures r[BucketOf(pos)] == [b] + t[BucketOf(pos)]
    ensures forall i :: 0 <= i < |r| && i != BucketOf(pos) ==> r[i] == t[i]
    ensures TotalEntries(r) == TotalEntries(t) + 1
    ensures multiset(Entries(r)) == multiset(Entries(t)) + multiset{b}
  {
    InsertAt(t, b, BucketOf(pos))
  }

  // ---------------------------------------------------------------- rebuild

  /** Bucket indices inside the table. */
  predicate ValidIndices(buckets: seq<nat>) {
    forall i :: 0 <= i < |buckets| ==> buckets[i] < HASH_SIZE
  }

  /** Home buckets: entry i is the bucket of position i. */
  function HomesOf(positions: seq<Vec2>): (homes: seq<nat>)
    ensures |homes| == |positions| && ValidIndices(homes)
    ensures forall i :: 0 <= i < |positions| ==> homes[i] == BucketOf(positions[i])
  {
    seq(|positions|, i requires 0 <= i < |positions| => BucketOf(positions[i]))
  }

  /** Every reference in bucket k names a boid whose home is k. */
  predicate Placed(t: Table, homes: seq<nat>) {
    forall k: int, q: BoidId {:trigger q in t[k]} :: 0 <= k < |t| && q in t[k] ==> q < |homes| && homes[q] == k
  }

  /** The boids lo, lo + 1, ..., hi - 1, each once. */
  function IdRange(lo: nat, hi: nat): multiset<BoidId>
    decreases hi - lo
  {
    if lo >= hi then multiset{} else multiset{lo} + IdRange(lo + 1, hi)
  }

  lemma {:induction false} IdRangeCount(lo: nat, hi: nat)
    ensures forall q :: IdRange(lo, hi)[q] == if lo <= q < hi then 1 else 0
    decreases hi - lo
  {
    if lo < hi {
      IdRangeCount(lo + 1, hi);
    }
  }

  /** Inserts boids `next`, ..., `|homes| - 1` in that order, boid i into bucket `homes[i]`. */
  function InsertFrom(t: Table, homes: seq<nat>, next: nat): (r: Table)
    requires ValidTable(t) && ValidIndices(homes)
    requires next <= |homes|
    ensures ValidTable(r)
    ensures TotalEntries(r) == TotalEntries(t) + (|homes| - next)
    ensures multiset(Entries(r)) == multiset(Entries(t)) + IdRange(next, |homes|)
    decreases |homes| - next
  {
    if next == |homes| then t
    else InsertFrom(InsertAt(t, next, homes[next]), homes, next + 1)
  }

  /** Inserting boid `next` at a position of its home bucket is the first step of `InsertFrom`. */
  lemma InsertFromStep(t: Table, homes: seq<nat>, next: nat, pos: Vec2)
    requires ValidTable(t) && ValidIndices(homes)
    requires next < |homes| && homes[next] == BucketOf(pos)
    ensures InsertFrom(Insert(t, next, pos), homes, next + 1) == InsertFrom(t, homes, next)
  {
  }

  /** Inserting never removes a reference. */
  lemma {:induction false} InsertFromKeeps(t: Table, homes: seq<nat>, next: nat)
    requires ValidTable(t) && ValidIndices(homes)
    requires next <= |homes|
    ensures forall k, q :: 0 <= k < |t| && q in t[k] ==> q in InsertFrom(t, homes, next)[k]
    decreases |homes| - next
  {
    if next < |homes| {
      var u := InsertAt(t, next, homes[next]);
      InsertFromKeeps(u, homes, next + 1);
      forall k, q | 0 <= k < |t| && q in t[k]
        ensures q in u[k]
      {
        if k == homes[next] {
          assert u[k] == [next] + t[k];
        }
      }
    }
  }

  /** Each inserted boid lands in its home bucket. */
  lemma {:induction false} InsertFromLands(t: Table, homes: seq<nat>, next: nat)
    requires ValidTable(t) && ValidIndices(homes)
    requires next <= |homes|
    ensures forall q :: next <= q < |homes| ==> q in InsertFrom(t, homes, next)[homes[q]]
    decreases |homes| - next
  {
    if next < |homes| {
      var u := InsertAt(t, next, homes[next]);
      var r := InsertFrom(u, homes, next + 1);
      assert InsertFrom(t, homes, next) == r;
      InsertFromLands(u, homes, next + 1);
      InsertFromKeeps(u, homes, next + 1);
      assert next in u[homes[next]];
      assert next in r[homes[next]];
    }
  }

  /** Insertion keeps every reference in its home bucket. */
  lemma {:induction false} InsertFromPlaced(t: Table, homes: seq<nat>, next: nat)
    requires ValidTable(t) && ValidIndices(homes)
    requires next <= |homes|
    requires Placed(t, homes)
    ensures Placed(InsertFrom(t, homes, next), homes)
    decreases |homes| - next
  {
    if next < |homes| {
      var u := InsertAt(t, next, homes[next]);
      forall k: int, q: BoidId | 0 <= k < |u| && q in u[k]
        ensures q < |homes| && homes[q] == k
      {
        if !(k == homes[next] && q == next) {
          assert q in t[k];
        }
      }
      assert Placed(u, homes);
      InsertFromPlaced(u, homes, next + 1);
    }
  }

  /**
   * The serial rebuild of the hash: clear, then insert boids 0, ..., n - 1 at
   * their positions. Afterwards the table references each of them exactly
   * once and nothing else.
   */
  function Rebuild(positions: seq<Vec2>): (t: Table)
    ensures ValidTable(t)
    ensures TotalEntries(t) == |positions|
    ensures forall q :: multiset(Entries(t))[q] == (if 0 <= q < |positions| then 1 else 0)
  {
    var empty := EmptyTable();
    assert Entries(empty) == [];
    var t := InsertFrom(empty, HomesOf(positions), 0);
    assert multiset(Entries(t)) == IdRange(0, |positions|);
    IdRangeCount(0, |positions|);
    t
  }

  /** After a rebuild each boid sits in the bucket of its own cell, and every reference in a bucket belongs there. */
  lemma RebuildPlaces(positions: seq<Vec2>)
    ensures forall q: nat :: q < |positions| ==> q in Rebuild(positions)[BucketOf(positions[q])]
    ensures Placed(Rebuild(positions), HomesOf(positions))
  {
    var empty := EmptyTable();
    var homes := HomesOf(positions);
    assert Placed(empty, homes) by {
      forall k: int, q: BoidId | 0 <= k < |empty|
        ensures q !in empty[k]
      {
        assert empty[k] == [];
      }
    }
    InsertFromLands(empty, homes, 0);
    InsertFromPlaced(empty, homes, 0);
  }

  // ---------------------------------------------------------------- neighbour query

  /** Offsets in visiting order: `dx` in the outer loop, `dy` in the inner, each -1, 0, 1. */
  function OffsetX(k: nat): int {
    k / 3 - 1
  }

  function OffsetY(k: nat): int {
    k % 3 - 1
  }

  /** Bucket visited at step k from cell (cx, cy); the neighbour cell is hashed unwrapped. */
  function VisitedBucket(cx: int, cy: int, k: nat): (index: nat)
    ensures index < HASH_SIZE
  {
    HashCell(cx + OffsetX(k), cy + OffsetY(k))
  }

  /** The nine buckets visited from cell (cx, cy), in visiting order. */
  function CellBuckets(cx: int, cy: int): (buckets: seq<nat>)
    ensures |buckets| == NEIGHBOURHOOD && ValidIndices(buckets)
  {
    seq(NEIGHBOURHOOD, k requires 0 <= k => VisitedBucket(cx, cy, k))
  }

  /** The nine buckets visited from the cell of `pos`. */
  function NeighbourBuckets(pos: Vec2): (buckets: seq<nat>)
    ensures |buckets| == NEIGHBOURHOOD && ValidIndices(buckets)
  {
    CellBuckets(CellOf(pos.x), CellOf(pos.y))
  }

  /**
   * One `while (node)` walk: every entry other than `p` is prepended to
   * `acc`. At most one entry is added per node, and `p` is never added.
   */
  function WalkBucket(node: Bucket, p: BoidId, acc: seq<BoidId>): (r: seq<BoidId>)
    ensures |acc| <= |r| <= |acc| + |node|
    ensures p in r ==> p in acc
    decreases |node|
  {
    if node == [] then acc
    else WalkBucket(node[1..], p, if node[0] != p then [node[0]] + acc else acc)
  }

  /**
   * Walks the given buckets in order, prepending every entry other than `p`:
   * nothing collected before is lost, and `p` is never added.
   */
  function ScanBuckets(t: Table, p: BoidId, buckets: seq<nat>, acc: seq<BoidId>): (r: seq<BoidId>)
    requires ValidTable(t) && ValidIndices(buckets)
    ensures |acc| <= |r|
    ensures p in r ==> p in acc
    decreases |buckets|
  {
    if buckets == [] then acc
    else ScanBuckets(t, p, buckets[1..], WalkBucket(t[buckets[0]], p, acc))
  }

  /** The given buckets, concatenated in order. */
  function VisitedIn(t: Table, buckets: seq<nat>): seq<BoidId>
    requires ValidTable(t) && ValidIndices(buckets)
    decreases |buckets|
  {
    if buckets == [] then [] else t[buckets[0]] + VisitedIn(t, buckets[1..])
  }

  /** Occurrences of `q` in each of the given buckets, summed; a bucket listed twice counts twice. */
  function OccurrencesIn(t: Table, buckets: seq<nat>, q: BoidId): nat
    requires ValidTable(t) && ValidIndices(buckets)
    decreases |buckets|
  {
    if buckets == [] then 0 else multiset(t[buckets[0]])[q] + OccurrencesIn(t, buckets[1..], q)
  }

  function Without(s: seq<BoidId>, p: BoidId): seq<BoidId> {
    if s == [] then [] else (if s[0] != p then [s[0]] else []) + Without(s[1..], p)
  }

  function Reverse<T>(s: seq<T>): seq<T> {
    if s == [] then [] else Reverse(s[1..]) + [s[0]]
  }

  lemma {:induction false} ReverseConcat<T>(a: seq<T>, b: seq<T>)
    ensures Reverse(a + b) == Reverse(b) + Reverse(a)
    decreases |a|
  {
    if a == [] {
      assert a + b == b;
    } else {
      assert (a + b)[1..] == a[1..] + b;
      ReverseConcat(a[1..], b);
    }
  }

  lemma {:induction false} ReverseMultiset<T>(s: seq<T>)
    ensures multiset(Reverse(s)) == multiset(s)
    decreases |s|
  {
    if s != [] {
      ReverseMultiset(s[1..]);
      assert s == [s[0]] + s[1..];
    }
  }

  lemma {:induction false} WithoutConcat(a: seq<BoidId>, b: seq<BoidId>, p: BoidId)
    ensures Without(a + b, p) == Without(a, p) + Without(b, p)
    decreases |a|
  {
    if a == [] {
      assert a + b == b;
    } else {
      assert (a + b)[1..] == a[1..] + b;
      WithoutConcat(a[1..], b, p);
    }
  }

  lemma {:induction false} WithoutMultiset(s: seq<BoidId>, p: BoidId)
    ensures forall q :: multiset(Without(s, p))[q] == if q == p then 0 else multiset(s)[q]
    decreases |s|
  {
    if s != [] {
      WithoutMultiset(s[1..], p);
      assert s == [s[0]] + s[1..];
    }
  }

  lemma {:induction false} WalkBucketIsReversedFilter(node: Bucket, p: BoidId, acc: seq<BoidId>)
    ensures WalkBucket(node, p, acc) == Reverse(Without(node, p)) + acc
    decreases |node|
  {
    if node != [] {
      var acc' := if node[0] != p then [node[0]] + acc else acc;
      WalkBucketIsReversedFilter(node[1..], p, acc');
      var head := if node[0] != p then [node[0]] else [];
      ReverseConcat(head, Without(node[1..], p));
      if node[0] != p {
        assert Reverse(head) == [node[0]] by {
          assert head[1..] == [];
        }
      }
    }
  }

  lemma {:induction false} ScanBucketsIsReversedFilter(t: Table, p: BoidId, buckets: seq<nat>, acc: seq<BoidId>)
    requires ValidTable(t) && ValidIndices(buckets)
    ensures ScanBuckets(t, p, buckets, acc) == Reverse(Without(VisitedIn(t, buckets), p)) + acc
    decreases |buckets|
  {
    if buckets != [] {
      var bucket := t[buckets[0]];
      var rest := VisitedIn(t, buckets[1..]);
      var walked := WalkBucket(bucket, p, acc);
      WalkBucketIsReversedFilter(bucket, p, acc);
      ScanBucketsIsReversedFilter(t, p, buckets[1..], walked);
      assert VisitedIn(t, buckets) == bucket + rest;
      WithoutConcat(bucket, rest, p);
      ReverseConcat(Without(bucket, p), Without(rest, p));
      ConcatRegroup(Reverse(Without(rest, p)), Reverse(Without(bucket, p)), acc);
    }
  }

  lemma ConcatRegroup<T>(front: seq<T>, back: seq<T>, acc: seq<T>)
    ensures front + (back + acc) == (front + back) + acc
  {
  }

  lemma {:induction false} VisitedInCounts(t: Table, buckets: seq<nat>, q: BoidId)
    requires ValidTable(t) && ValidIndices(buckets)
    ensures multiset(VisitedIn(t, buckets))[q] == OccurrencesIn(t, buckets, q)
    decreases |buckets|
  {
    if buckets != [] {
      VisitedInCounts(t, buckets[1..], q);
    }
  }

  lemma {:induction false} InVisitedIn(t: Table, buckets: seq<nat>, q: BoidId)
    requires ValidTable(t) && ValidIndices(buckets)
    ensures q in VisitedIn(t, buckets) <==> exists j :: 0 <= j < |buckets| && q in t[buckets[j]]
    decreases |buckets|
  {
    if buckets != [] {
      InVisitedIn(t, buckets[1..], q);
      if exists j :: 0 <= j < |buckets| && q in t[buckets[j]] {
        var j :| 0 <= j < |buckets| && q in t[buckets[j]];
        if j != 0 {
          assert buckets[1..][j - 1] == buckets[j];
        }
      }
      if q in VisitedIn(t, buckets[1..]) {
        var j :| 0 <= j < |buckets[1..]| && q in t[buckets[1..][j]];
        assert buckets[j + 1] == buckets[1..][j];
      }
    }
  }

  /** A boid in two of the listed buckets, at different steps, is counted at least twice. */
  lemma {:induction false} OccurrencesAtTwoSteps(t: Table, buckets: seq<nat>, q: BoidId, i: nat, j: nat)
    requires ValidTable(t) && ValidIndices(buckets)
    requires i < j < |buckets|
    requires q in t[buckets[i]] && q in t[buckets[j]]
    ensures OccurrencesIn(t, buckets, q) >= 2
    decreases |buckets|
  {
    if i == 0 {
      OccurrenceAtStep(t, buckets[1..], q, j - 1);
    } else {
      OccurrencesAtTwoSteps(t, buckets[1..], q, i - 1, j - 1);
    }
  }

  lemma {:induction false} OccurrenceAtStep(t: Table, buckets: seq<nat>, q: BoidId, i: nat)
    requires ValidTable(t) && ValidIndices(buckets)
    requires i < |buckets| && q in t[buckets[i]]
    ensures OccurrencesIn(t, buckets, q) >= 1
    decreases |buckets|
  {
    if i > 0 {
      OccurrenceAtStep(t, buckets[1..], q, i - 1);
    }
  }

  /**
   * `find_neighbors`: walks the nine buckets visited from the cell of `pos`
   * and returns every reference other than `p`, in reverse visiting order
   * (each find is prepended). A reference occurs as many times as it occurs
   * in the nine buckets together, so a bucket visited twice (two neighbour
   * cells hashing alike) contributes its entries twice.
   */
  function FindNeighbors(t: Table, p: BoidId, pos: Vec2): (r: seq<BoidId>)
    requires ValidTable(t)
    ensures r == Reverse(Without(VisitedIn(t, NeighbourBuckets(pos)), p))
    ensures p !in r
    ensures forall q :: q != p ==> multiset(r)[q] == OccurrencesIn(t, NeighbourBuckets(pos), q)
  {
    var buckets := NeighbourBuckets(pos);
    var visited := VisitedIn(t, buckets);
    var r := ScanBuckets(t, p, buckets, []);
    ScanBucketsIsReversedFilter(t, p, buckets, []);
    ReverseMultiset(Without(visited, p));
    WithoutMultiset(visited, p);
    assert multiset(r)[p] == 0;
    forall q
      ensures multiset(visited)[q] == OccurrencesIn(t, buckets, q)
    {
      VisitedInCounts(t, buckets, q);
    }
    r
  }

  /**
   * In a table where every reference sits in its home bucket, another boid
   * that is in its home bucket is found exactly when that bucket is visited.
   */
  lemma FoundIffHomeVisited(t: Table, homes: seq<nat>, p: BoidId, pos: Vec2, q: BoidId)
    requires ValidTable(t) && ValidIndices(homes) && Placed(t, homes)
    requires q < |homes| && q in t[homes[q]] && q != p
    ensures q in FindNeighbors(t, p, pos) <==> homes[q] in NeighbourBuckets(pos)
  {
    var buckets := NeighbourBuckets(pos);
    var r := FindNeighbors(t, p, pos);
    var visited := VisitedIn(t, buckets);
    VisitedInCounts(t, buckets, q);
    assert q in r <==> q in multiset(r);
    assert q in visited <==> q in multiset(visited);
    InVisitedIn(t, buckets, q);
    if q in r {
      var j :| 0 <= j < |buckets| && q in t[buckets[j]];
      assert homes[q] == buckets[j];
    }
    if homes[q] in buckets {
      var j :| 0 <= j < |buckets| && buckets[j] == homes[q];
      assert q in t[buckets[j]];
    }
  }

  /** The nine visited buckets include those of the cells (cx + dx, cy + dy), dx, dy in {-1, 0, 1}. */
  lemma AdjacentCellVisited(pos: Vec2, x: int, y: int)
    requires -1 <= x - CellOf(pos.x) <= 1 && -1 <= y - CellOf(pos.y) <= 1
    ensures HashCell(x, y) in NeighbourBuckets(pos)
  {
    var cx, cy := CellOf(pos.x), CellOf(pos.y);
    var k: nat := (x - cx + 1) * 3 + (y - cy + 1);
    assert cx + OffsetX(k) == x && cy + OffsetY(k) == y;
    assert NeighbourBuckets(pos)[k] == VisitedBucket(cx, cy, k);
  }

  /**
   * After a rebuild, another boid is found exactly when the bucket of its
   * cell is one of the nine buckets visited from `p`'s cell; in particular
   * every boid in `p`'s own cell or in one of the eight adjacent cells (taken
   * without wrapping) is found.
   */
  lemma FindNeighborsAfterRebuild(positions: seq<Vec2>, p: BoidId, q: BoidId)
    requires p < |positions| && q < |positions| && q != p
    ensures q in FindNeighbors(Rebuild(positions), p, positions[p]) <==>
            BucketOf(positions[q]) in NeighbourBuckets(positions[p])
    ensures -1 <= CellOf(positions[q].x) - CellOf(positions[p].x) <= 1 &&
            -1 <= CellOf(positions[q].y) - CellOf(positions[p].y) <= 1 ==>
            q in FindNeighbors(Rebuild(positions), p, positions[p])
  {
    var homes := HomesOf(positions);
    RebuildPlaces(positions);
    FoundIffHomeVisited(Rebuild(positions), homes, p, positions[p], q);
    var qx, qy := CellOf(positions[q].x), CellOf(positions[q].y);
    if -1 <= qx - CellOf(positions[p].x) <= 1 && -1 <= qy - CellOf(positions[p].y) <= 1 {
      AdjacentCellVisited(positions[p], qx, qy);
    }
  }

  // ---------------------------------------------------------------- concrete hash values

  /** The 32-bit products of `hash_cell` for the cell coordinates -1, 0, 1 and 19. */
  lemma HashProducts()
    ensures (AsUnsigned(-1) * 73856093) % 0x1_0000_0000 == 4221111203
    ensures (AsUnsigned(0) * 73856093) % 0x1_0000_0000 == 0
    ensures (AsUnsigned(1) * 73856093) % 0x1_0000_0000 == 73856093
    ensures (AsUnsigned(19) * 73856093) % 0x1_0000_0000 == 1403265767
    ensures (AsUnsigned(-1) * 19349663) % 0x1_0000_0000 == 4275617633
    ensures (AsUnsigned(0) * 19349663) % 0x1_0000_0000 == 0
    ensures (AsUnsigned(1) * 19349663) % 0x1_0000_0000 == 19349663
  {
    assert AsUnsigned(-1) == 4294967295;
  }

  /** Evaluates `hash_cell` from its two products and their xor. */
  lemma HashCellValue(cellX: int, cellY: int, hx: nat, hy: nat, x: nat)
    requires hx < 0x1_0000_0000 && hy < 0x1_0000_0000
    requires (AsUnsigned(cellX) * 73856093) % 0x1_0000_0000 == hx
    requires (AsUnsigned(cellY) * 19349663) % 0x1_0000_0000 == hy
    requires Xor32(hx, hy) == x
    ensures HashCell(cellX, cellY) == x % HASH_SIZE
  {
  }

  /** Buckets of the cells (-1, -1), (-1, 0) and (-1, 1). */
  lemma WestCellsOfOrigin()
    ensures HashCell(-1, -1) == 503
    ensures HashCell(-1, 0) == 8498
    ensures HashCell(-1, 1) == 2419
  {
    HashProducts();
    assert Xor32(4221111203, 4275617633) == 88192194 by {
      assert (4221111203 as bv32) ^ (4275617633 as bv32) == 88192194;
    }
    assert Xor32(4221111203, 0) == 4221111203 by {
      assert (4221111203 as bv32) ^ (0 as bv32) == 4221111203;
    }
    assert Xor32(4221111203, 19349663) == 4206775100 by {
      assert (4221111203 as bv32) ^ (19349663 as bv32) == 4206775100;
    }
    HashCellValue(-1, -1, 4221111203, 4275617633, 88192194);
    HashCellValue(-1, 0, 4221111203, 0, 4221111203);
    HashCellValue(-1, 1, 4221111203, 19349663, 4206775100);
  }

  /** Buckets visited from cell (0, 0) with dx = -1. */
  lemma WestBucketsOfOrigin()
    ensures CellBuckets(0, 0)[0] == 503
    ensures CellBuckets(0, 0)[1] == 8498
    ensures CellBuckets(0, 0)[2] == 2419
  {
    var b := CellBuckets(0, 0);
    WestCellsOfOrigin();
    assert OffsetX(0) == -1 && OffsetY(0) == -1 && OffsetX(1) == -1 && OffsetY(1) == 0 && OffsetX(2) == -1 && OffsetY(2) == 1;
    assert b[0] == HashCell(-1, -1) && b[1] == HashCell(-1, 0) && b[2] == HashCell(-1, 1);
  }

  /** Buckets of the cells (0, -1), (0, 0) and (0, 1). */
  lemma CentreCellsOfOrigin()
    ensures HashCell(0, -1) == 6799
    ensures HashCell(0, 0) == 0
    ensures HashCell(0, 1) == 6132
  {
    HashProducts();
    assert Xor32(0, 4275617633) == 4275617633 by {
      assert (0 as bv32) ^ (4275617633 as bv32) == 4275617633;
    }
    assert Xor32(0, 0) == 0 by {
      assert (0 as bv32) ^ (0 as bv32) == 0;
    }
    assert Xor32(0, 19349663) == 19349663 by {
      assert (0 as bv32) ^ (19349663 as bv32) == 19349663;
    }
    HashCellValue(0, -1, 0, 4275617633, 4275617633);
    HashCellValue(0, 0, 0, 0, 0);
    HashCellValue(0, 1, 0, 19349663, 19349663);
  }

  /** Buckets visited from cell (0, 0) with dx = 0. */
  lemma CentreBucketsOfOrigin()
    ensures CellBuckets(0, 0)[3] == 6799
    ensures CellBuckets(0, 0)[4] == 0
    ensures CellBuckets(0, 0)[5] == 6132
  {
    var b := CellBuckets(0, 0);
    CentreCellsOfOrigin();
    assert OffsetX(3) == 0 && OffsetY(3) == -1 && OffsetX(4) == 0 && OffsetY(4) == 0 && OffsetX(5) == 0 && OffsetY(5) == 1;
    assert b[3] == HashCell(0, -1) && b[4] == HashCell(0, 0) && b[5] == HashCell(0, 1);
  }

  /** Buckets of the cells (1, -1), (1, 0) and (1, 1). */
  lemma EastCellsOfOrigin()
    ensures HashCell(1, -1) == 2419
    ensures HashCell(1, 0) == 4433
    ensures HashCell(1, 1) == 503
  {
    HashProducts();
    assert Xor32(73856093, 4275617633) == 4206775100 by {
      assert (73856093 as bv32) ^ (4275617633 as bv32) == 4206775100;
    }
    assert Xor32(73856093, 0) == 73856093 by {
      assert (73856093 as bv32) ^ (0 as bv32) == 73856093;
    }
    assert Xor32(73856093, 19349663) == 88192194 by {
      assert (73856093 as bv32) ^ (19349663 as bv32) == 88192194;
    }
    HashCellValue(1, -1, 73856093, 4275617633, 4206775100);
    HashCellValue(1, 0, 73856093, 0, 73856093);
    HashCellValue(1, 1, 73856093, 19349663, 88192194);
  }

  /** Buckets visited from cell (0, 0) with dx = 1. */
  lemma EastBucketsOfOrigin()
    ensures CellBuckets(0, 0)[6] == 2419
    ensures CellBuckets(0, 0)[7] == 4433
    ensures CellBuckets(0, 0)[8] == 503
  {
    var b := CellBuckets(0, 0);
    EastCellsOfOrigin();
    assert OffsetX(6) == 1 && OffsetY(6) == -1 && OffsetX(7) == 1 && OffsetY(7) == 0 && OffsetX(8) == 1 && OffsetY(8) == 1;
    assert b[6] == HashCell(1, -1) && b[7] == HashCell(1, 0) && b[8] == HashCell(1, 1);
  }

  lemma EdgeCellBucket()
    ensures HashCell(19, 0) == 4171
  {
    HashProducts();
    assert Xor32(1403265767, 0) == 1403265767 by {
      assert (1403265767 as bv32) ^ (0 as bv32) == 1403265767;
    }
    HashCellValue(19, 0, 1403265767, 0, 1403265767);
  }

  /** The buckets visited from a position depend only on its cell. */
  lemma NeighbourBucketsOfCell(pos: Vec2, cx: int, cy: int)
    requires CellOf(pos.x) == cx && CellOf(pos.y) == cy
    ensures NeighbourBuckets(pos) == CellBuckets(cx, cy)
  {
  }

  /** From cell (0, 0), the first and the last visited bucket are both that of cell (1, 1). */
  lemma OriginDiagonalsCollide()
    ensures CellBuckets(0, 0)[0] == HashCell(1, 1) && CellBuckets(0, 0)[8] == HashCell(1, 1)
  {
    WestBucketsOfOrigin();
    EastBucketsOfOrigin();
    EastCellsOfOrigin();
  }

  /**
   * Bucket collisions inside one neighbourhood: from cell (0, 0) the offsets
   * (-1, -1) and (1, 1) both hash to bucket 503, so a query from cell (0, 0)
   * reports a boid of cell (1, 1) at least twice.
   */
  lemma CollidingOffsetsReportTwice(t: Table, p: BoidId, pos: Vec2, q: BoidId)
    requires ValidTable(t)
    requires CellOf(pos.x) == 0 && CellOf(pos.y) == 0
    requires q != p && q in t[HashCell(1, 1)]
    ensures multiset(FindNeighbors(t, p, pos))[q] >= 2
  {
    NeighbourBucketsOfCell(pos, 0, 0);
    OriginDiagonalsCollide();
    OccurrencesAtTwoSteps(t, CellBuckets(0, 0), q, 0, 8);
  }

  /** A sequence of nine values, none of them `x`, does not contain `x`. */
  lemma NotAmongNine(s: seq<nat>, x: nat)
    requires |s| == 9
    requires s[0] != x && s[1] != x && s[2] != x && s[3] != x && s[4] != x
    requires s[5] != x && s[6] != x && s[7] != x && s[8] != x
    ensures x !in s
  {
  }

  /** Cell (19, 0) hashes to none of the nine buckets visited from cell (0, 0). */
  lemma EdgeCellOutsideOriginBlock()
    ensures HashCell(19, 0) !in CellBuckets(0, 0)
  {
    WestBucketsOfOrigin();
    CentreBucketsOfOrigin();
    EastBucketsOfOrigin();
    EdgeCellBucket();
    NotAmongNine(CellBuckets(0, 0), HashCell(19, 0));
  }

  /** The cells of x = 10 and x = 980. */
  lemma EdgeExampleCells()
    ensures CellOf(10.0) == 0 && CellOf(980.0) == 19
  {
  }

  /**
   * Neighbour cells are not wrapped at the world's edge: after a rebuild, a
   * query from cell (0, 0) never finds a boid of cell (19, 0), although on a
   * 1000-wide world the two cells touch across the edge (a boid at x = 980
   * is 30 units from one at x = 10, see EdgeExampleCells): the query hashes
   * cell (-1, 0), not (19, 0).
   */
  lemma EdgeCellsAreNotWrapped(positions: seq<Vec2>, p: BoidId, q: BoidId)
    requires p < |positions| && q < |positions| && p != q
    requires CellOf(positions[p].x) == 0 && CellOf(positions[p].y) == 0
    requires CellOf(positions[q].x) == 19 && CellOf(positions[q].y) == 0
    ensures q !in FindNeighbors(Rebuild(positions), p, positions[p])
  {
    FindNeighborsAfterRebuild(positions, p, q);
    NeighbourBucketsOfCell(positions[p], 0, 0);
    EdgeCellOutsideOriginBlock();
  }
}

=== FILE: torus.dfy ===
/**
 * Geometry of the wrap-around world of src/boids.c: a rectangle of
 * SCREEN_WIDTH x SCREEN_HEIGHT whose opposite edges are glued together.
 * The extents are C ints; coordinates are floats, modelled as reals.
 *
 * Two versions of the displacement and the distance exist here. The
 * "AsWritten" members follow the C code, which compares against the integer
 * half `SCREEN_WIDTH / 2`; for an odd extent that half is 0.5 short and the
 * result is not the shortest displacement. The unmarked members compare
 * against the exact half; for an even extent the two agree. The `predated`
 * decision of the simulation uses the code's displacement, and a radius test
 * on it agrees with one on the minimum image whenever the radius is at most
 * the integer half of each extent.
 */
module Torus {
  import opened Vector

  /** The extents of the world, in pixels. */
  datatype World = World(width: int, height: int)

  predicate ValidWorld(w: World) {
    w.width > 0 && w.height > 0
  }

  function Abs(x: real): real {
    if x < 0.0 then -x else x
  }

  /** C's integer division by 2: truncation toward zero. */
  function CHalf(n: int): int {
    if n >= 0 then n / 2 else -((-n) / 2)
  }

  // ---------------------------------------------------------------- displacement

  /**
   * One axis of `Vector2SubtractTorus` as written: two tests in sequence
   * against the integer half. Whatever the extent, the result is the raw
   * difference shifted by at most one extent.
   */
  function SubtractAxisAsWritten(d: real, extent: int): (r: real)
    ensures r == d || r == d - extent as real || r == d + extent as real
  {
    var e := extent as real;
    var d1 := if d > CHalf(extent) as real then d - e else d;
    if d1 < CHalf(-extent) as real then d1 + e else d1
  }

  /** `Vector2SubtractTorus(a, b)` as written; for even extents it is the minimum-image displacement. */
  function SubtractTorusAsWritten(a: Vec2, b: Vec2, w: World): (r: Vec2)
    ensures ValidWorld(w) && w.width % 2 == 0 && w.height % 2 == 0 ==> r == SubtractTorus(a, b, w)
  {
    SubtractAxisAsWrittenEven(a.x - b.x, w.width);
    SubtractAxisAsWrittenEven(a.y - b.y, w.height);
    Vec2(SubtractAxisAsWritten(a.x - b.x, w.width), SubtractAxisAsWritten(a.y - b.y, w.height))
  }

  /** One axis of the displacement, compared against the exact half of the extent. */
  function SubtractAxis(d: real, extent: int): real {
    var e := extent as real;
    var d1 := if d > e / 2.0 then d - e else d;
    if d1 < -e / 2.0 then d1 + e else d1
  }

  /**
   * The displacement from `b` to `a` on the torus: for points inside the
   * world, the shortest of the images of `a - b`.
   */
  function SubtractTorus(a: Vec2, b: Vec2, w: World): Vec2 {
    Vec2(SubtractAxis(a.x - b.x, w.width), SubtractAxis(a.y - b.y, w.height))
  }

  /** The displacement is the raw difference shifted by a whole extent, or not at all. */
  lemma SubtractAxisShifts(d: real, extent: int)
    requires extent > 0
    ensures var r := SubtractAxis(d, extent);
            r == d || r == d - extent as real || r == d + extent as real
  {
  }

  /**
   * For coordinates inside the world (|d| < extent) the displacement is the
   * minimum image: at most half an extent long, and no image d + k * extent
   * is shorter.
   */
  lemma SubtractAxisMinimumImage(d: real, extent: int, k: int)
    requires extent > 0
    requires -(extent as real) < d < extent as real
    ensures Abs(SubtractAxis(d, extent)) <= extent as real / 2.0
    ensures Abs(SubtractAxis(d, extent)) <= Abs(d + k as real * extent as real)
  {
    var e := extent as real;
    var r := SubtractAxis(d, extent);
    SubtractAxisShifts(d, extent);
    // d + k e is r + m e for an integer m; any m other than 0 moves r by at least one extent.
    var m: int := if r == d then k else if r == d - e then k + 1 else k - 1;
    assert d + k as real * e == r + m as real * e;
    if m != 0 {
      ShiftedImageLong(r, e, m);
    }
  }

  /** Within half an extent of 0, every other image is at least half an extent from 0. */
  lemma ShiftedImageLong(r: real, e: real, m: int)
    requires e > 0.0 && -e / 2.0 <= r <= e / 2.0 && m != 0
    ensures Abs(r + m as real * e) >= e / 2.0
  {
    var me := m as real * e;
    if m >= 1 {
      ProductNonNegative(m as real - 1.0, e);
      assert (m as real - 1.0) * e == me - e;
    } else {
      ProductNonNegative(-(m as real) - 1.0, e);
      assert (-(m as real) - 1.0) * e == -me - e;
    }
  }

  lemma ProductNonNegative(x: real, y: real)
    requires x >= 0.0 && y >= 0.0
    ensures x * y >= 0.0
  {
  }

  /** Swapping the two points reverses the displacement, for any difference. */
  lemma SubtractAxisAntisymmetric(d: real, extent: int)
    requires extent > 0
    ensures SubtractAxis(-d, extent) == -SubtractAxis(d, extent)
  {
  }

  lemma SubtractTorusAntisymmetric(a: Vec2, b: Vec2, w: World)
    requires ValidWorld(w)
    ensures SubtractTorus(b, a, w) == Neg(SubtractTorus(a, b, w))
  {
    SubtractAxisAntisymmetric(a.x - b.x, w.width);
    SubtractAxisAntisymmetric(a.y - b.y, w.height);
    assert b.x - a.x == -(a.x - b.x) && b.y - a.y == -(a.y - b.y);
  }

  /**
   * For coordinates inside the world the code's displacement is at most the
   * integer half long, or else strictly shorter than extent minus the
   * integer half.
   */
  lemma SubtractAxisAsWrittenBounded(d: real, extent: int)
    requires extent > 0
    requires -(extent as real) < d < extent as real
    ensures var r := SubtractAxisAsWritten(d, extent);
            Abs(r) <= CHalf(extent) as real || Abs(r) < (extent - CHalf(extent)) as real
  {
    assert CHalf(-extent) == -CHalf(extent);
  }

  /** For an even extent the integer half is exact and the code computes the minimum image. */
  lemma SubtractAxisAsWrittenEven(d: real, extent: int)
    ensures extent > 0 && extent % 2 == 0 ==> SubtractAxisAsWritten(d, extent) == SubtractAxis(d, extent)
  {
    if extent > 0 && extent % 2 == 0 {
      assert CHalf(extent) as real == extent as real / 2.0;
      assert CHalf(-extent) as real == -(extent as real) / 2.0;
    }
  }

  /**
   * For coordinates inside the world and any extent, the code's displacement
   * and the minimum image have the same square, or else both are longer than
   * the integer half. So a length test against a radius of at most the
   * integer half gives the same answer on both.
   */
  lemma SubtractAxisAsWrittenAgrees(d: real, extent: int)
    requires extent > 0
    requires -(extent as real) < d < extent as real
    ensures Sq(SubtractAxisAsWritten(d, extent)) == Sq(SubtractAxis(d, extent)) ||
            (Abs(SubtractAxisAsWritten(d, extent)) > CHalf(extent) as real &&
             Abs(SubtractAxis(d, extent)) > CHalf(extent) as real)
  {
  }

  /**
   * On a 5-wide world the code is not antisymmetric: a difference of 2.5 and
   * one of -2.5 both come out as 2.5.
   */
  lemma SubtractAxisAsWrittenOddNotAntisymmetric()
    ensures SubtractAxisAsWritten(2.5, 5) == 2.5
    ensures SubtractAxisAsWritten(-2.5, 5) == 2.5
  {
  }

  /**
   * On a 5-wide world the code returns 2.75 for a difference of 2.75, whose
   * shortest image is -2.25: the result is longer than half the extent.
   */
  lemma SubtractAxisAsWrittenOddNotMinimum()
    ensures SubtractAxisAsWritten(2.75, 5) == 2.75
    ensures SubtractAxis(2.75, 5) == -2.25
    ensures Abs(SubtractAxisAsWritten(2.75, 5)) > 5.0 / 2.0
  {
  }

  // ---------------------------------------------------------------- distance

  /** One axis of `DistanceOnTorus` as written: |d|, reflected when above the integer half. */
  function DistanceAxisAsWritten(d: real, extent: int): (r: real)
    ensures r == Abs(d) || r == extent as real - Abs(d)
    ensures 0 < extent && Abs(d) < extent as real ==> 0.0 <= r <= (extent - CHalf(extent)) as real
  {
    var dd := Abs(d);
    if dd > CHalf(extent) as real then extent as real - dd else dd
  }

  /** `DistanceOnTorus(a, b)` as written, squared (the final square root is monotone and left out). */
  function DistanceSqAsWritten(a: Vec2, b: Vec2, w: World): (r: real)
    ensures 0.0 <= r
  {
    SquareNonNegative(DistanceAxisAsWritten(a.x - b.x, w.width));
    SquareNonNegative(DistanceAxisAsWritten(a.y - b.y, w.height));
    Sq(DistanceAxisAsWritten(a.x - b.x, w.width)) + Sq(DistanceAxisAsWritten(a.y - b.y, w.height))
  }

  /** One axis of the torus distance, reflected when above the exact half. */
  function DistanceAxis(d: real, extent: int): (r: real)
    requires extent > 0
    ensures r >= 0.0 || Abs(d) > extent as real
  {
    var dd := Abs(d);
    if dd > extent as real / 2.0 then extent as real - dd else dd
  }

  /** The squared distance on the torus. */
  function DistanceSq(a: Vec2, b: Vec2, w: World): real
    requires ValidWorld(w)
  {
    Sq(DistanceAxis(a.x - b.x, w.width)) + Sq(DistanceAxis(a.y - b.y, w.height))
  }

  /** Inside the world the distance along an axis is the length of the displacement along it. */
  lemma DistanceAxisIsDisplacementLength(d: real, extent: int)
    requires extent > 0
    requires -(extent as real) < d < extent as real
    ensures DistanceAxis(d, extent) == Abs(SubtractAxis(d, extent))
    ensures 0.0 <= DistanceAxis(d, extent) <= extent as real / 2.0
  {
    SubtractAxisMinimumImage(d, extent, 0);
  }

  /** Along one axis inside the world, the squared distance is the squared displacement. */
  lemma DistanceAxisSquare(d: real, extent: int)
    requires extent > 0
    requires -(extent as real) < d < extent as real
    ensures Sq(DistanceAxis(d, extent)) == Sq(SubtractAxis(d, extent))
  {
    DistanceAxisIsDisplacementLength(d, extent);
    AbsSquare(SubtractAxis(d, extent));
  }

  /** Inside the world the squared distance is the squared length of the displacement `SubtractTorus(a, b)`. */
  lemma DistanceSqIsDisplacementNorm(a: Vec2, b: Vec2, w: World)
    requires ValidWorld(w)
    requires -(w.width as real) < a.x - b.x < w.width as real
    requires -(w.height as real) < a.y - b.y < w.height as real
    ensures DistanceSq(a, b, w) == NormSq(SubtractTorus(a, b, w))
  {
    DistanceAxisSquare(a.x - b.x, w.width);
    DistanceAxisSquare(a.y - b.y, w.height);
  }

  lemma SquareNonNegative(x: real)
    ensures 0.0 <= Sq(x)
  {
    if x < 0.0 {
      assert Sq(x) == (-x) * (-x);
    }
  }

  lemma AbsSquare(x: real)
    ensures Sq(Abs(x)) == Sq(x)
  {
  }

  /** The squared distance is symmetric, and zero from a point to itself. */
  lemma DistanceSqSymmetric(a: Vec2, b: Vec2, w: World)
    requires ValidWorld(w)
    ensures DistanceSq(a, b, w) == DistanceSq(b, a, w)
    ensures DistanceSq(a, a, w) == 0.0
  {
    assert Abs(b.x - a.x) == Abs(a.x - b.x) && Abs(b.y - a.y) == Abs(a.y - b.y);
  }

  /** Inside the world the squared distance lies between 0 and (width / 2)^2 + (height / 2)^2. */
  lemma DistanceSqBounded(a: Vec2, b: Vec2, w: World)
    requires ValidWorld(w)
    requires -(w.width as real) < a.x - b.x < w.width as real
    requires -(w.height as real) < a.y - b.y < w.height as real
    ensures 0.0 <= DistanceSq(a, b, w)
    ensures DistanceSq(a, b, w) <= Sq(w.width as real / 2.0) + Sq(w.height as real / 2.0)
  {
    var hw, hh := w.width as real / 2.0, w.height as real / 2.0;
    DistanceAxisIsDisplacementLength(a.x - b.x, w.width);
    DistanceAxisIsDisplacementLength(a.y - b.y, w.height);
    var dx, dy := DistanceAxis(a.x - b.x, w.width), DistanceAxis(a.y - b.y, w.height);
    SquareMonotone(dx, hw);
    SquareMonotone(dy, hh);
  }

  lemma SquareMonotone(x: real, y: real)
    requires 0.0 <= x <= y
    ensures 0.0 <= Sq(x) <= Sq(y)
  {
    assert x * x <= x * y <= y * y;
  }

  /** The code's squared distance is symmetric, and zero from a point to itself, for positive extents. */
  lemma DistanceSqAsWrittenSymmetric(a: Vec2, b: Vec2, w: World)
    requires ValidWorld(w)
    ensures DistanceSqAsWritten(a, b, w) == DistanceSqAsWritten(b, a, w)
    ensures DistanceSqAsWritten(a, a, w) == 0.0
  {
    assert Abs(b.x - a.x) == Abs(a.x - b.x) && Abs(b.y - a.y) == Abs(a.y - b.y);
  }

  /** For even extents the code's distance is the torus distance. */
  lemma DistanceSqAsWrittenEven(a: Vec2, b: Vec2, w: World)
    requires ValidWorld(w) && w.width % 2 == 0 && w.height % 2 == 0
    ensures DistanceSqAsWritten(a, b, w) == DistanceSq(a, b, w)
  {
    assert CHalf(w.width) as real == w.width as real / 2.0;
    assert CHalf(w.height) as real == w.height as real / 2.0;
  }

  /**
   * On a 5-wide world the code reports 2.75 for two points 2.25 apart along
   * x, and so disagrees with the length of its own displacement.
   */
  lemma DistanceAsWrittenOddTooLong()
    ensures DistanceAxisAsWritten(2.25, 5) == 2.75
    ensures DistanceAxis(2.25, 5) == 2.25
    ensures DistanceSqAsWritten(Vec2(2.25, 0.0), Vec2(0.0, 0.0), World(5, 4)) == Sq(2.75)
  {
  }

  // ---------------------------------------------------------------- wrap

  /**
   * One axis of `Vector2Wrap`: a single shift by the extent when the
   * coordinate is outside, so the coordinate moves by at most one extent and
   * an in-range one stays where it is.
   */
  function WrapAxis(x: real, extent: real): (r: real)
    ensures r == x || r == x + extent || r == x - extent
    ensures InAxis(x, extent) ==> r == x
  {
    if x < 0.0 then x + extent
    else if x >= extent then x - extent
    else x
  }

  /** `Vector2Wrap(v, width, height)`: a point less than one extent outside the world comes back inside. */
  function Wrap(v: Vec2, w: World): (r: Vec2)
    ensures ValidWorld(w) && WithinOneExtent(v, w) ==> InWorld(r, w)
  {
    Vec2(WrapAxis(v.x, w.width as real), WrapAxis(v.y, w.height as real))
  }

  /** Each component at most one extent below the world or less than one extent above it. */
  predicate WithinOneExtent(v: Vec2, w: World) {
    -(w.width as real) <= v.x < 2.0 * w.width as real && -(w.height as real) <= v.y < 2.0 * w.height as real
  }

  predicate InAxis(x: real, extent: real) {
    0.0 <= x < extent
  }

  /** A position inside the world. */
  predicate InWorld(v: Vec2, w: World) {
    InAxis(v.x, w.width as real) && InAxis(v.y, w.height as real)
  }

  /** Wrapping lands inside the world exactly when the coordinate was less than one extent outside it. */
  lemma WrapAxisProperties(x: real, extent: real)
    requires extent > 0.0
    ensures InAxis(WrapAxis(x, extent), extent) <==> -extent <= x < 2.0 * extent
  {
  }

  /** Wrapping twice is wrapping once, for every coordinate that the first wrap brings inside. */
  lemma WrapIdempotent(v: Vec2, w: World)
    requires ValidWorld(w) && WithinOneExtent(v, w)
    ensures InWorld(Wrap(v, w), w)
    ensures Wrap(Wrap(v, w), w) == Wrap(v, w)
  {
    WrapAxisProperties(v.x, w.width as real);
    WrapAxisProperties(v.y, w.height as real);
    WrapAxisProperties(Wrap(v, w).x, w.width as real);
    WrapAxisProperties(Wrap(v, w).y, w.height as real);
  }

  /** A position more than one extent outside stays outside after one wrap. */
  lemma WrapFarOutside()
    ensures WrapAxis(-15.0, 10.0) == -5.0
    ensures !InAxis(WrapAxis(-15.0, 10.0), 10.0)
  {
  }
}

=== FILE: vector.dfy ===
/**
 * Two-component vectors: the raylib `Vector2` used by the simulation,
 * with coordinates idealised from `float` to `real`.
 */
module Vector {

  datatype Vec2 = Vec2(x: real, y: real)

  function Add(a: Vec2, b: Vec2): Vec2 {
    Vec2(a.x + b.x, a.y + b.y)
  }

  function Scale(v: Vec2, s: real): Vec2 {
    Vec2(v.x * s, v.y * s)
  }

  function Neg(v: Vec2): Vec2 {
    Vec2(-v.x, -v.y)
  }

  function Sq(x: real): real {
    x * x
  }

  /** Squared Euclidean length; `Vector2Length(v) < r` is `r > 0 && NormSq(v) < r * r`. */
  function NormSq(v: Vec2): real {
    Sq(v.x) + Sq(v.y)
  }
}

=== FILE: wrappers.dfy ===
/** Optional values, used where the C code terminates the process instead of returning. */
module Wrappers {

  datatype Option<+T> = None | Some(value: T)
}
